=== FILE: README.md ===
# Certificate codes of am-certificates, modelled in Dafny

The am-certificates backend issues single-use certificate codes (ULIDs) in
batches, lets a member redeem a code for a named certificate (a PDF and a
PNG preview in the certificate folder), and lets codes be deleted again.
This project models the core of that lifecycle:

- package `database` (`backend/database/database.go`) over an immutable
  table `map<string, Certificate>` keyed by code (module `Database`, rows in
  module `Certificates`);
- package `handlers` (`backend/handlers/certificateHandler.go`): validate,
  redeem, owner delete, batch create and admin delete, each a pure function
  from the table and the request's fields to the reply and the table
  afterwards (module `Handlers`, replies in module `Http`);
- the PDF functions of package `utils` (`backend/utils/pdf.go`), reduced to
  their file names and the files they leave in the certificate folder
  (module `Render`);
- package `middleware` (`backend/middleware/auth.go`): loading the
  credentials, the Basic-Auth check, the API-key check and both middlewares
  (module `Auth`), with the standard base64 of section 4 of RFC 4648 as Go's
  decoder accepts it (module `Base64`) and `strconv.Atoi` and the date layout
  `01.02.2006` (module `Decimal`).

The store is the live table: the rows that are not soft-deleted.  The
invariant `WellKeyed` (every key is its row's code) stands for the unique
index on `Code` over those rows; every operation keeps it.  A code is
"new" below when no live row holds it.  Storage faults, the
clock, the ULID generator, `ulid.ParseStrict`, writing the PDF and running
`pdftoppm` are parameters: a boolean per read or write, a `Date`, an oracle
`nat -> string`, a predicate `string -> bool`, and booleans in `RedeemEnv`.
A reply is `Http(status, body)`, `Panicked` (a handler panic, which the
server recovers by dropping the connection under HTTP/1.x or resetting the
stream under HTTP/2; no response is sent) or `ProcessExit` (`log.Fatalf`).

Facts about the source that a reader might not expect:

- `GetEntriesByType` (backend/database/database.go:56-59) groups ALL rows
  by type, with no `generated` filter, so its counts add up to the total
  number of rows; the start-up log in backend/main.go:53 prints each of
  them as `unused` (see "## Findings").
- Owner delete answers 404 in both failure cases, but with different texts:
  `Invalid code` for an unknown or unredeemed code, or a failed lookup or
  delete, and `Invalid email` for a wrong email.
- The redemption date is written in the layout `01.02.2006`, i.e.
  `MM.DD.YYYY` (backend/database/database.go:73).
- tests/test_backend.py calls `/certificate` endpoints and expects a
  `jpeg_url` field; the Go router has neither, so those tests describe
  another version of the API.
- Every `GetEntry` lookup may fail on its own (a flag per lookup): a failed
  lookup reads as "no such row", as the handlers treat any error alike.
  The redemption handler looks the code up once and the renderer looks the
  redeemed row up again.

## Model

| member | source | states |
|---|---|---|
| Certificates.RowsWithCode | backend/models/certificate.go:8 | in a well-keyed table at most one row carries a given code, and exactly one when the code is present |
| Database.CleanDatabase | backend/database/database.go:23-26 | purges exactly the rows with empty type and `generated = false`, leaves every other row unchanged, and changes nothing when the delete fails |
| Database.CleanIsIdempotent | backend/database/database.go:23-26 | after a purge no purge-eligible row remains, so purging again changes nothing |
| Database.GetTotalEntries | backend/database/database.go:29-36 | the number of rows, or 0 when the count query fails |
| Database.GetUnusedEntries | backend/database/database.go:39-45 | the number of rows with `generated = false`, or 0 on a failed query |
| Database.UnusedAtMostTotal | backend/database/database.go:29-45 | unused and redeemed rows partition the table, so the unused count never exceeds the total |
| Database.GetEntriesByType | backend/database/database.go:48-69 | nil on a failed query; otherwise one entry per type that occurs, whose value is the number of rows of that type (redeemed ones included), between 1 and the number of rows |
| Database.EntriesByTypeSumToTotal | backend/database/database.go:48-69 | the per-type counts add up to the total number of rows |
| Database.FormatDate | backend/database/database.go:73 | `MM.DD.YYYY`: two-digit month and day and an at-least-four-digit year, separated by dots, each field reading back as the date's value |
| Database.AssignEntry | backend/database/database.go:71-75 | on success the row for the code is stored with `generated` set, today's formatted date and the given name, email, type and tags; no other row changes; on failure nothing changes |
| Database.GetEntry | backend/database/database.go:77-82 | finds a row iff the query succeeds and a row selected by the code has this `generated` flag, and returns that row |
| Database.DeleteEntry | backend/database/database.go:84-88 | on success removes exactly the rows the code selects, whatever their state; on failure nothing changes |
| Database.GetUnusedEntriesByType | backend/main.go:51-54 | nil on a failed query; otherwise one entry per type of an unused row, whose value is the number of unused rows of that type |
| Database.UnusedByTypeSumToUnused | backend/main.go:51-54 | the unused per-type counts add up to the number of unused rows |
| Database.EntriesByTypeCountsRedeemed | backend/database/database.go:56-59 | on a table whose only row is redeemed, the per-type counts report one row while there is no unused row and the unused per-type counts are empty |
| Database.Create | backend/handlers/certificateHandler.go:123-134 | an insert fails on a storage fault or a duplicate code and then changes nothing; otherwise exactly one row is added |
| Render.PdfFileName | backend/utils/pdf.go:20-22 | the code followed by `.pdf` |
| Render.PngFileName | backend/utils/pdf.go:24-26 | the code followed by `.png` |
| Render.ArtifactNamesDistinct | backend/utils/pdf.go:20-26 | distinct codes get distinct artifact names and no PDF name is a PNG name |
| Render.GeneratePdf | backend/utils/pdf.go:29-80 | returns `""` iff the lookup fails or no redeemed row has the code, otherwise the PDF's name, even when writing the file failed; the file appears only when written |
| Render.ConvertPdfToPng | backend/utils/pdf.go:83-104 | ends the process iff the folder is missing; returns the PNG's name iff the PDF is present and the conversion succeeds, adding the PNG; else `""` and no change |
| Handlers.ValidateCode | backend/handlers/certificateHandler.go:16-25 | 200 with the row iff the code is issued and unused and the lookup succeeds, else 404 `Invalid or used code`; the table never changes |
| Handlers.GenerateCertificate | backend/handlers/certificateHandler.go:28-65 | 400 on a body that does not decode, 404 unless the code is unused and its lookup succeeds; otherwise the row gets the name, email, date and `generated` when the save succeeds, the URLs are built even from empty file names, and a missing folder ends the process |
| Handlers.RedeemedCodeIsSpent | backend/handlers/certificateHandler.go:41-49 | after a persisted redemption the code is redeemed, and validating or redeeming it again answers 404 and changes nothing |
| Handlers.RedeemReportsSuccessWhenSaveFails | backend/handlers/certificateHandler.go:49-64 | the ignored save error: the client still gets `success` with an empty PDF name, and the code stays unused and valid |
| Handlers.PdfLookupFaultDropsPdfName | backend/handlers/certificateHandler.go:49-57 | when the renderer's second lookup fails after a persisted redemption, the client gets `success` with an empty PDF name while the code is spent |
| Handlers.DeleteCertificate | backend/handlers/certificateHandler.go:67-88 | deletes the row and answers `Certificate deleted` iff the code is redeemed, its lookup succeeds, the stored email equals the given one and the delete succeeds; otherwise 404 and no change |
| Handlers.InsertAllStore | backend/handlers/certificateHandler.go:118-134 | the insert loop stops at the first failing insert and the table then holds the old rows plus one unused row with the request's type and tags for each code inserted before it |
| Handlers.InsertAllRows | backend/handlers/certificateHandler.go:118-134 | after the loop a key is present iff it was before or its code went in; old rows are unchanged and the new ones are issued rows filed under their codes |
| Handlers.InsertAllAccounting | backend/handlers/certificateHandler.go:118-134 | every inserted code was fresh, accepted and unlike the others, the table grew by their number, and a stop is caused by a refused insert or a taken code |
| Handlers.InsertAllSucceedsIff | backend/handlers/certificateHandler.go:118-134 | the loop completes iff every insert is accepted and every code is absent from the live table and pairwise distinct |
| Handlers.IssueCodes | backend/handlers/certificateHandler.go:112-146 | a 200 lists all `count` generated codes in order, each with URL `https://zertifikat.austromagnum.at/img/?code=` + code, and the table is the old one plus an unused row for each of them; otherwise 500 `Failed to generate certificate code` and the batch stopped at some insert n (`StoppedAt`): the table is the old one plus the rows of the first n codes, those n inserts were accepted with new, pairwise distinct codes, and insert n was refused or its code was taken; old rows are kept either way |
| Handlers.InsertAllStop | backend/handlers/certificateHandler.go:118-134 | when the loop does not complete, the table holds the old rows plus the rows of the codes before the stop, those codes were accepted, new and distinct, and the insert at the stop was refused or its code was taken |
| Handlers.StoppedAtFirstFailure | backend/handlers/certificateHandler.go:118-134 | the stop a failed batch reports is the first insert that does not go through, every earlier one having gone through |
| Handlers.StoppedAtIsUnique | backend/handlers/certificateHandler.go:118-134 | a failed batch has a single stopping point and leaves a single table, so the rows inserted before the failure are exactly those kept |
| Handlers.IssueCodesSucceedsIff | backend/handlers/certificateHandler.go:118-146 | the batch answers 200 iff every generated code is absent from the live table and pairwise distinct and every insert is accepted, else 500 |
| Handlers.PositiveCount | backend/handlers/certificateHandler.go:94-99 | the count is accepted iff `strconv.Atoi` parses it to a positive value, which is then the count |
| Handlers.CreateCertificateCodes | backend/handlers/certificateHandler.go:91-147 | 400 `Invalid count` unless the count parses to a positive int64, then 400 `Invalid type` for an empty type, and only then the batch loop; no path changes an existing row |
| Handlers.CreateSucceedsIffCodesFresh | backend/handlers/certificateHandler.go:91-147 | with a valid count and type the answer is 200 iff the generated codes are absent from the live table and pairwise distinct and every insert is accepted, else 500 |
| Handlers.DeleteCertificateCodes | backend/handlers/certificateHandler.go:149-164 | deletes the row whatever its state and writes no body iff the code is a ULID and the delete succeeds; otherwise 404 `Invalid code` and no change |
| Handlers.LifecycleOnlyMovesForward | backend/handlers/certificateHandler.go:16-164 | every endpoint keeps codes unique, adds rows only as unused, and changes a row only from unused to redeemed |
| Decimal.Atoi | backend/handlers/certificateHandler.go:95-99 | a parse succeeds only on an optional sign followed by at least one ASCII digit, yields the value they spell with the sign applied, and stays in the int64 range |
| Decimal.AtoiOfItoa | backend/handlers/certificateHandler.go:95 | every int64 written in decimal parses back to itself |
| Decimal.ItoaOfAtoi | backend/handlers/certificateHandler.go:95 | every count spelled canonically (no `+`, no leading zero, no `-0`) that parses is exactly the decimal spelling of the value it yields, so parsing loses nothing but those variants |
| Base64.Decode | backend/middleware/auth.go:86-91 | a successful decode yields a byte string |
| Base64.DecodeGroupsAccepts | backend/middleware/auth.go:86-91 | the group decoder succeeds iff its input is whole groups of alphabet characters with `=` only filling the last one or two places, and then four characters carry three bytes |
| Base64.DecodeAccepts | backend/middleware/auth.go:86-91 | decoding succeeds exactly on text that, line breaks removed, is well padded, and that text's length fixes the output's length |
| Base64.DecodeEncode | backend/middleware/auth.go:86-91 | decoding the standard encoding of a byte string gives it back |
| Base64.DecodeNeedsWholeGroups | backend/middleware/auth.go:87-91 | text whose length, line breaks aside, is not a multiple of four is rejected by the group decoder |
| Auth.LoadCredentials | backend/middleware/auth.go:21-40 | an unreadable file is an error that leaves the previous credentials; otherwise user name and password come from `auth` (empty when missing) and the key set is the set of `api_keys` VALUES |
| Auth.ValidateApiKey | backend/middleware/auth.go:105-108 | a key is valid iff it is in the loaded key set |
| Auth.SplitAtFirstColon | backend/middleware/auth.go:94-98 | no split iff the text has no colon; otherwise the user part has no colon and user, colon and rest rebuild the text |
| Auth.SplitJoined | backend/middleware/auth.go:94 | `u:p` splits into `u` and `p` for every colon-free `u`, so the password may itself contain colons |
| Auth.ValidateBasicAuth | backend/middleware/auth.go:78-102 | accepts iff the header is `Basic ` followed by a base64 text that decodes to `username:password` exactly and the user name has no colon |
| Auth.AcceptsOwnHeader | backend/middleware/auth.go:78-102 | the header a client builds from the configured credentials is accepted |
| Auth.AcceptedHeaderFixesPassword | backend/middleware/auth.go:101 | one header cannot be accepted for two different passwords of the same user |
| Auth.ApiKeyMiddleware | backend/middleware/auth.go:65-75 | an empty or unknown key gets 403 `Invalid or missing API key` without running the guarded handler; any other key runs it |
| Auth.ConfiguredKeysOpen | backend/middleware/auth.go:33-37 | every non-empty configured value opens the guarded handler, and an entry name that is no value gets 403 |
| Auth.EmptyKeyRefused | backend/middleware/auth.go:68 | the empty key is refused even when it is in the key set |
| Auth.BasicAuthMiddleware | backend/middleware/auth.go:43-62 | a missing header panics, bad credentials get 401 `Invalid credentials` with a challenge, good credentials panic; the table never changes |
| Auth.BasicAuthNeverReachesNext | backend/middleware/auth.go:47-60 | the answer does not depend on the guarded handler, and its success never comes through |
| Auth.BasicAuthMiddlewareIntended | backend/middleware/auth.go:43-62 | 401 `Authorization required` for a missing header, 401 `Invalid credentials` for bad ones, the guarded handler for good ones |
| Auth.IntendedAdmitsConfiguredClient | backend/middleware/auth.go:59-60 | with the configured credentials the intended middleware runs the handler while the written one panics |
| Auth.WrittenAndIntendedAgreeOnRejection | backend/middleware/auth.go:43-62 | the two middlewares agree exactly on non-empty headers with bad credentials |

## Left out

- Routing in `backend/main.go`: flag parsing, the static file servers and
  the HTTPS redirect.  Two routing facts matter to readers of this model:
  `/erstelle` and `/loesche` are registered on the root router, not on the
  subrouter that uses `BasicAuthMiddleware`, so they are not guarded; and
  `DeleteCertificate` has no route at all.  `ApiKeyMiddleware` is not
  mounted either.
- gorm's bookkeeping fields (`ID`, `CreatedAt`, `UpdatedAt`, `DeletedAt`)
  and soft deletion; a delete here removes the row from the live table.
- Database.Create: a once-deleted code stays in the unique index on `Code`
  (every delete in `backend/database/database.go` is a soft delete), so
  re-creating it fails in the source while the model, which forgets
  deleted codes, accepts it; "new" in the batch contracts means absent
  from the live table.  With ULID codes a repeat of a deleted code is
  practically unreachable.
- Database.GetTotalEntries: counts are unbounded naturals, not `int64`; a
  table of 2^63 rows is out of reach.
- The ULID generator and `ulid.ParseStrict`: the first is an oracle
  `nat -> string`, the second a predicate parameter; their formats are
  not modelled.
- The PDF layout, fonts and metadata in `GeneratePDF`, and how `pdftoppm`
  converts; only the success of writing and converting is a parameter.
- `os.Stat` failures other than "does not exist" on the PDF: treated as
  absence, although the code then tries the conversion anyway.
- Parsing the INI file (quoting, comments, duplicate keys, the default
  section): `LoadCredentials` takes the parsed sections.
- Decoding the JSON body of a redemption: a body either decodes to the
  three fields or is `Malformed`; unknown fields, `null` and type mismatches
  are not distinguished.
- The calendar: `Date` admits day 31 in every month; the clock supplies a
  real date.
- Logging, and `utils/email.go` (its only call is commented out).
- Concurrency: the race between `GetEntry` and `AssignEntry` when two
  redemptions of one code interleave; each request is modelled as atomic.
- Go strings are byte strings; here a `string` stands for one, with each
  character one byte where it matters (`Base64.IsByteString`).

## Findings

| source | as written | input that shows it | evidently intended | confidence | as-written member | corrected member |
|---|---|---|---|---|---|---|
| backend/middleware/auth.go:47, backend/middleware/auth.go:59 | `log.Panicln` on a missing header and on successful authentication, so the guarded handler is never reached and the 401 `Authorization required` lines are dead | header `Basic ` + base64 of `username:password` of the configured credentials: the request panics instead of reaching the handler | `log.Println`: 401 `Authorization required` for a missing header, the guarded handler for good credentials | high, not executed | Auth.BasicAuthMiddleware | Auth.BasicAuthMiddlewareIntended |
| backend/database/database.go:56-59, backend/main.go:53 | the per-type query has no `generated` filter, yet the start-up log prints each count as `Type "…" unused n` | one redeemed `Gold` row and no other: the log prints `Type "Gold" unused 1` although no code is unused | the counts of unused rows per type (a `generated = false` condition), adding up to `GetUnusedEntries` | medium, not executed | Database.GetEntriesByType | Database.GetUnusedEntriesByType |

`Auth.BasicAuthNeverReachesNext` and `Auth.IntendedAdmitsConfiguredClient`
exhibit the difference.  `Database.EntriesByTypeCountsRedeemed` exhibits
the second row; `Database.UnusedByTypeSumToUnused` proves the corrected
statistic adds up to the unused count.  No route mounts either middleware, so the rest of
the model does not depend on them.

=== FILE: auth.dfy ===
/** Package `middleware` (backend/middleware/auth.go): the credentials
    loaded from the INI file, the Basic-Auth header check, the API-key check
    and the two middlewares that guard a handler with them.  A guarded
    handler is a function from the table to an outcome; a middleware that
    does not reach it leaves the table as it was. */
module Auth {
  import opened Optional
  import opened Certificates
  import opened Http
  import Base64

  /** What `LoadCredentials` leaves in the package globals. */
  datatype Credentials = Credentials(username: string, password: string, apiKeys: set<string>)

  /** A parsed INI file: section name to key name to value. */
  type IniFile = map<string, map<string, string>>

  /** `cfg.Section(section).Key(key).String()`: a missing section or key
      reads as the empty string. */
  function KeyValue(file: IniFile, section: string, key: string): (v: string)
    ensures v != "" ==> section in file && key in file[section] && file[section][key] == v
  {
    if section in file && key in file[section] then file[section][key] else ""
  }

  /** The values of the `api_keys` section. */
  function ApiKeyValues(file: IniFile): set<string> {
    if "api_keys" in file then set name | name in file["api_keys"] :: file["api_keys"][name] else {}
  }

  datatype Loaded = Loaded(err: bool, creds: Credentials)

  /** `LoadCredentials(file)`: `None` is a file `ini.Load` cannot read or
      parse, which is reported and leaves the previous credentials in
      place.  Otherwise the user name and password come from the `auth`
      section and the key set holds the VALUES of the `api_keys` entries;
      their names play no part. */
  function LoadCredentials(prior: Credentials, file: Option<IniFile>): (r: Loaded)
    ensures r.err <==> file.None?
    ensures r.err ==> r.creds == prior
    ensures file.Some? ==> r.creds.username == KeyValue(file.value, "auth", "username")
    ensures file.Some? ==> r.creds.password == KeyValue(file.value, "auth", "password")
    ensures file.Some? ==> forall k :: k in r.creds.apiKeys <==>
      "api_keys" in file.value && exists name | name in file.value["api_keys"] :: file.value["api_keys"][name] == k
  {
    match file
    case None => Loaded(true, prior)
    case Some(f) =>
      Loaded(false, Credentials(KeyValue(f, "auth", "username"), KeyValue(f, "auth", "password"), ApiKeyValues(f)))
  }

  /** `validateAPIKey`: membership in the loaded key set. */
  function ValidateApiKey(creds: Credentials, key: string): (ok: bool)
    ensures ok <==> key in creds.apiKeys
  {
    key in creds.apiKeys
  }

  /** The user and password halves of `SplitN(s, ":", 2)`. */
  datatype UserPass = UserPass(user: string, pass: string)

  /** Splits at the first `:`; `None` when there is no `:` (SplitN then
      returns a single element). */
  function SplitAtFirstColon(s: string): (r: Option<UserPass>)
    ensures r.None? <==> ':' !in s
    ensures r.Some? ==> s == r.value.user + ":" + r.value.pass && ':' !in r.value.user
  {
    if |s| == 0 then None
    else if s[0] == ':' then Some(UserPass("", s[1..]))
    else
      match SplitAtFirstColon(s[1..])
      case None => None
      case Some(up) => Some(UserPass([s[0]] + up.user, up.pass))
  }

  /** The split of `u:p` is `u` and `p` whenever `u` has no colon, whatever
      `p` holds. */
  lemma {:induction false} SplitJoined(u: string, p: string)
    requires ':' !in u
    ensures SplitAtFirstColon(u + ":" + p) == Some(UserPass(u, p))
    decreases |u|
  {
    var s := u + ":" + p;
    if |u| > 0 {
      assert s[1..] == u[1..] + ":" + p;
      SplitJoined(u[1..], p);
      assert [s[0]] + u[1..] == u;
    } else {
      assert s[1..] == p;
    }
  }

  const BasicPrefix := "Basic "

  predicate HasBasicPrefix(header: string) {
    |header| >= |BasicPrefix| && header[..|BasicPrefix|] == BasicPrefix
  }

  /** `validateBasicAuth`: true exactly when the header is `Basic ` followed
      by the base64 encoding of `username:password`.  Because the decoded
      text is split at its first colon, a configured user name that itself
      contains a colon can never be matched. */
  function ValidateBasicAuth(creds: Credentials, header: string): (ok: bool)
    ensures ok <==> HasBasicPrefix(header)
                    && Base64.Decode(header[|BasicPrefix|..]) == Some(creds.username + ":" + creds.password)
                    && ':' !in creds.username
  {
    if !HasBasicPrefix(header) then false
    else
      var decoded := Base64.Decode(header[|BasicPrefix|..]);
      if decoded.None? then false
      else
        var split := SplitAtFirstColon(decoded.value);
        if split.None? then false
        else
          if ':' !in creds.username then
            SplitJoined(creds.username, creds.password);
            split.value.user == creds.username && split.value.pass == creds.password
          else
            false
  }

  /** The header a client builds from the configured credentials is
      accepted, whatever colons the password holds. */
  lemma {:induction false} AcceptsOwnHeader(creds: Credentials)
    requires Base64.IsByteString(creds.username + ":" + creds.password)
    requires ':' !in creds.username
    ensures ValidateBasicAuth(creds, BasicPrefix + Base64.Encode(creds.username + ":" + creds.password))
  {
    var header := BasicPrefix + Base64.Encode(creds.username + ":" + creds.password);
    assert header[|BasicPrefix|..] == Base64.Encode(creds.username + ":" + creds.password);
    assert header[..|BasicPrefix|] == BasicPrefix;
    Base64.DecodeEncode(creds.username + ":" + creds.password);
  }

  /** A header accepted for one set of credentials names those credentials
      and no others: the password is determined by the header. */
  lemma {:induction false} AcceptedHeaderFixesPassword(c1: Credentials, c2: Credentials, header: string)
    requires c1.username == c2.username
    requires ValidateBasicAuth(c1, header) && ValidateBasicAuth(c2, header)
    ensures c1.password == c2.password
  {
    var u := c1.username;
    assert u + ":" + c1.password == u + ":" + c2.password;
    SplitJoined(u, c1.password);
    SplitJoined(u, c2.password);
  }

  /** `ApiKeyMiddleware`: an empty or unknown `X-API-Key` is answered with
      403 and the guarded handler is not run; any other key runs it. */
  function ApiKeyMiddleware(creds: Credentials, key: string, s: Store, next: Store -> Outcome): (r: Outcome)
    ensures key == "" || !ValidateApiKey(creds, key) ==>
      r.reply == Http(StatusForbidden, Text("Invalid or missing API key")) && r.store == s
    ensures key != "" && ValidateApiKey(creds, key) ==> r == next(s)
  {
    if key == "" || !ValidateApiKey(creds, key) then
      Outcome(Http(StatusForbidden, Text("Invalid or missing API key")), s)
    else
      next(s)
  }

  /** Every non-empty value configured under `api_keys` opens the guarded
      handler; a name that is not also a value does not. */
  lemma {:induction false} ConfiguredKeysOpen(prior: Credentials, file: IniFile, name: string, s: Store, next: Store -> Outcome)
    requires "api_keys" in file && name in file["api_keys"]
    ensures var creds := LoadCredentials(prior, Some(file)).creds;
      && (file["api_keys"][name] != "" ==> ApiKeyMiddleware(creds, file["api_keys"][name], s, next) == next(s))
      && ((forall n | n in file["api_keys"] :: file["api_keys"][n] != name) ==>
            ApiKeyMiddleware(creds, name, s, next).reply.status == StatusForbidden)
  {
  }

  /** The empty key is refused even when an `api_keys` entry has an empty
      value, so the key set's membership alone does not decide. */
  lemma {:induction false} EmptyKeyRefused(creds: Credentials, s: Store, next: Store -> Outcome)
    ensures ApiKeyMiddleware(creds, "", s, next).reply == Http(StatusForbidden, Text("Invalid or missing API key"))
  {
  }

  /** `BasicAuthMiddleware` as written: a missing header panics
      (`log.Panicln`) before the 401 lines after it; bad credentials get
      401 with a `WWW-Authenticate` challenge; good credentials panic too
      (`log.Panicln` where a log line was meant), before `next` is reached.
      No path runs the guarded handler, and the table never changes. */
  function BasicAuthMiddleware(creds: Credentials, header: string, s: Store, next: Store -> Outcome): (r: Outcome)
    ensures r.store == s
    ensures r.reply == Panicked <==> header == "" || ValidateBasicAuth(creds, header)
    ensures r.reply != Panicked ==> r.reply == Http(StatusUnauthorized, Challenge("Invalid credentials"))
  {
    if header == "" then Outcome(Panicked, s)
    else if !ValidateBasicAuth(creds, header) then
      Outcome(Http(StatusUnauthorized, Challenge("Invalid credentials")), s)
    else
      Outcome(Panicked, s)
  }

  /** Whatever the guarded handler does, `BasicAuthMiddleware` answers the
      same, and a successful answer of the handler never comes through:
      even the configured credentials cannot reach it. */
  lemma {:induction false} BasicAuthNeverReachesNext(creds: Credentials, header: string, s: Store, n1: Store -> Outcome, n2: Store -> Outcome)
    ensures BasicAuthMiddleware(creds, header, s, n1) == BasicAuthMiddleware(creds, header, s, n2)
    ensures n1(s).reply.Http? && n1(s).reply.status == StatusOK ==>
      BasicAuthMiddleware(creds, header, s, n1).reply != n1(s).reply
  {
  }

  /** The middleware its messages describe: 401 `Authorization required`
      for a missing header, 401 `Invalid credentials` for a bad one, and the
      guarded handler for good credentials. */
  function BasicAuthMiddlewareIntended(creds: Credentials, header: string, s: Store, next: Store -> Outcome): (r: Outcome)
    ensures header == "" ==> r == Outcome(Http(StatusUnauthorized, Challenge("Authorization required")), s)
    ensures header != "" && !ValidateBasicAuth(creds, header) ==>
      r == Outcome(Http(StatusUnauthorized, Challenge("Invalid credentials")), s)
    ensures header != "" && ValidateBasicAuth(creds, header) ==> r == next(s)
  {
    if header == "" then
      Outcome(Http(StatusUnauthorized, Challenge("Authorization required")), s)
    else if !ValidateBasicAuth(creds, header) then
      Outcome(Http(StatusUnauthorized, Challenge("Invalid credentials")), s)
    else
      next(s)
  }

  /** The intended middleware runs the guarded handler exactly for a client
      holding the configured credentials, and differs from the written one
      exactly on the missing header and on good credentials. */
  lemma {:induction false} IntendedAdmitsConfiguredClient(creds: Credentials, s: Store, next: Store -> Outcome)
    requires Base64.IsByteString(creds.username + ":" + creds.password)
    requires ':' !in creds.username
    ensures var header := BasicPrefix + Base64.Encode(creds.username + ":" + creds.password);
      && BasicAuthMiddlewareIntended(creds, header, s, next) == next(s)
      && BasicAuthMiddleware(creds, header, s, next).reply == Panicked
  {
    AcceptsOwnHeader(creds);
  }

  /** Both middlewares agree on every non-empty header with bad
      credentials, and on no other header. */
  lemma {:induction false} WrittenAndIntendedAgreeOnRejection(creds: Credentials, header: string, s: Store, next: Store -> Outcome)
    requires next(s).reply != Panicked
    ensures BasicAuthMiddleware(creds, header, s, next) == BasicAuthMiddlewareIntended(creds, header, s, next)
            <==> header != "" && !ValidateBasicAuth(creds, header)
  {
  }
}

=== FILE: base64.dfy ===
/** The standard base64 encoding of section 4 of RFC 4648, as Go's
    `base64.StdEncoding` decodes it: groups of four alphabet characters,
    `=` padding only in the last group, unused low bits of a padded group
    ignored, and carriage returns and line feeds skipped wherever they
    appear.  Go strings are byte strings; here each char of such a string
    stands for one byte. */
module Base64 {
  import opened Optional

  predicate IsByteString(s: string) {
    forall i | 0 <= i < |s| :: s[i] as int < 256
  }

  /** The character of a six-bit value. */
  function Alphabet(v: nat): (c: char)
    requires v < 64
    ensures c != '=' && c != '\r' && c != '\n'
  {
    if v < 26 then (('A' as int) + v) as char
    else if v < 52 then (('a' as int) + (v - 26)) as char
    else if v < 62 then (('0' as int) + (v - 52)) as char
    else if v == 62 then '+'
    else '/'
  }

  /** The six-bit value of an alphabet character; `None` for every other
      character, `=` included. */
  function SextetOf(c: char): (r: Option<nat>)
    ensures r.Some? ==> r.value < 64 && Alphabet(r.value) == c
  {
    if 'A' <= c <= 'Z' then Some((c as int) - ('A' as int))
    else if 'a' <= c <= 'z' then Some((c as int) - ('a' as int) + 26)
    else if '0' <= c <= '9' then Some((c as int) - ('0' as int) + 52)
    else if c == '+' then Some(62)
    else if c == '/' then Some(63)
    else None
  }

  lemma {:induction false} SextetOfAlphabet(v: nat)
    requires v < 64
    ensures SextetOf(Alphabet(v)) == Some(v)
  {
  }

  function ByteChar(v: int): char
    requires 0 <= v < 256
  {
    v as char
  }

  // The three bytes a group of four sextets carries; a padded group keeps
  // only the first one or two.
  function Byte0(a: nat, b: nat): char requires a < 64 && b < 64 { ByteChar(a * 4 + b / 16) }
  function Byte1(b: nat, c: nat): char requires b < 64 && c < 64 { ByteChar((b % 16) * 16 + c / 4) }
  function Byte2(c: nat, d: nat): char requires c < 64 && d < 64 { ByteChar((c % 4) * 64 + d) }

  /** Decodes groups of four characters, none of them a line break. */
  function DecodeGroups(s: string): (r: Option<string>)
    ensures r.Some? ==> IsByteString(r.value)
    decreases |s|
  {
    if |s| == 0 then Some("")
    else if |s| < 4 then None
    else
      var a, b := SextetOf(s[0]), SextetOf(s[1]);
      if a.None? || b.None? then None
      else if s[2] == '=' then
        if s[3] == '=' && |s| == 4 then Some([Byte0(a.value, b.value)]) else None
      else
        var c := SextetOf(s[2]);
        if c.None? then None
        else if s[3] == '=' then
          if |s| == 4 then Some([Byte0(a.value, b.value), Byte1(b.value, c.value)]) else None
        else
          var d := SextetOf(s[3]);
          if d.None? then None
          else
            match DecodeGroups(s[4..])
            case None => None
            case Some(rest) =>
              Some([Byte0(a.value, b.value), Byte1(b.value, c.value), Byte2(c.value, d.value)] + rest)
  }

  /** `s` without its carriage returns and line feeds. */
  function StripLineBreaks(s: string): (r: string)
    ensures forall i | 0 <= i < |r| :: r[i] != '\r' && r[i] != '\n'
    ensures |r| <= |s|
  {
    if |s| == 0 then ""
    else if s[0] == '\r' || s[0] == '\n' then StripLineBreaks(s[1..])
    else [s[0]] + StripLineBreaks(s[1..])
  }

  /** `base64.StdEncoding.DecodeString`; `None` is its CorruptInputError. */
  function Decode(s: string): (r: Option<string>)
    ensures r.Some? ==> IsByteString(r.value)
  {
    DecodeGroups(StripLineBreaks(s))
  }

  /** The padded standard encoding of a byte string. */
  function Encode(bs: string): (r: string)
    requires IsByteString(bs)
    ensures |r| == 4 * ((|bs| + 2) / 3)
    ensures forall i | 0 <= i < |r| :: r[i] != '\r' && r[i] != '\n'
    decreases |bs|
  {
    if |bs| == 0 then ""
    else
      var x := bs[0] as int;
      if |bs| == 1 then
        [Alphabet(x / 4), Alphabet((x % 4) * 16), '=', '=']
      else
        var y := bs[1] as int;
        if |bs| == 2 then
          [Alphabet(x / 4), Alphabet((x % 4) * 16 + y / 16), Alphabet((y % 16) * 4), '=']
        else
          var z := bs[2] as int;
          [Alphabet(x / 4), Alphabet((x % 4) * 16 + y / 16), Alphabet((y % 16) * 4 + z / 64), Alphabet(z % 64)]
          + Encode(bs[3..])
  }

  lemma {:induction false} StripKeepsClean(s: string)
    requires forall i | 0 <= i < |s| :: s[i] != '\r' && s[i] != '\n'
    ensures StripLineBreaks(s) == s
    decreases |s|
  {
    if |s| > 0 {
      StripKeepsClean(s[1..]);
    }
  }

  // The arithmetic of one group: splitting bytes into sextets and joining
  // them back gives the bytes again.
  lemma {:induction false} JoinSplit1(x: int)
    requires 0 <= x < 256
    ensures Byte0(x / 4, (x % 4) * 16) == x as char
  {
  }

  lemma {:induction false} JoinSplit2(x: int, y: int)
    requires 0 <= x < 256 && 0 <= y < 256
    ensures Byte0(x / 4, (x % 4) * 16 + y / 16) == x as char
    ensures Byte1((x % 4) * 16 + y / 16, (y % 16) * 4) == y as char
  {
    var b := (x % 4) * 16 + y / 16;
    assert b / 16 == x % 4 && b % 16 == y / 16;
    assert ((y % 16) * 4) / 4 == y % 16;
  }

  lemma {:induction false} JoinSplit3(x: int, y: int, z: int)
    requires 0 <= x < 256 && 0 <= y < 256 && 0 <= z < 256
    ensures Byte0(x / 4, (x % 4) * 16 + y / 16) == x as char
    ensures Byte1((x % 4) * 16 + y / 16, (y % 16) * 4 + z / 64) == y as char
    ensures Byte2((y % 16) * 4 + z / 64, z % 64) == z as char
  {
    var b, c := (x % 4) * 16 + y / 16, (y % 16) * 4 + z / 64;
    assert b / 16 == x % 4 && b % 16 == y / 16;
    assert c / 4 == y % 16 && c % 4 == z / 64;
  }

  // Decoding one group, for sextets given as numbers.
  lemma {:induction false} DecodePadded1(a: nat, b: nat)
    requires a < 64 && b < 64
    ensures DecodeGroups([Alphabet(a), Alphabet(b), '=', '=']) == Some([Byte0(a, b)])
  {
    SextetOfAlphabet(a);
    SextetOfAlphabet(b);
  }

  lemma {:induction false} DecodePadded2(a: nat, b: nat, c: nat)
    requires a < 64 && b < 64 && c < 64
    ensures DecodeGroups([Alphabet(a), Alphabet(b), Alphabet(c), '=']) == Some([Byte0(a, b), Byte1(b, c)])
  {
    SextetOfAlphabet(a);
    SextetOfAlphabet(b);
    SextetOfAlphabet(c);
  }

  lemma {:induction false} DecodeFull(a: nat, b: nat, c: nat, d: nat, rest: string, tail: string)
    requires a < 64 && b < 64 && c < 64 && d < 64
    requires DecodeGroups(rest) == Some(tail)
    ensures DecodeGroups([Alphabet(a), Alphabet(b), Alphabet(c), Alphabet(d)] + rest)
            == Some([Byte0(a, b), Byte1(b, c), Byte2(c, d)] + tail)
  {
    var s := [Alphabet(a), Alphabet(b), Alphabet(c), Alphabet(d)] + rest;
    assert s[4..] == rest;
    SextetOfAlphabet(a);
    SextetOfAlphabet(b);
    SextetOfAlphabet(c);
    SextetOfAlphabet(d);
  }

  lemma {:induction false} DecodeLastGroup1(bs: string)
    requires IsByteString(bs) && |bs| == 1
    ensures DecodeGroups(Encode(bs)) == Some(bs)
  {
    var x := bs[0] as int;
    DecodePadded1(x / 4, (x % 4) * 16);
    JoinSplit1(x);
    assert bs == [x as char];
  }

  lemma {:induction false} DecodeLastGroup2(bs: string)
    requires IsByteString(bs) && |bs| == 2
    ensures DecodeGroups(Encode(bs)) == Some(bs)
  {
    var x, y := bs[0] as int, bs[1] as int;
    DecodePadded2(x / 4, (x % 4) * 16 + y / 16, (y % 16) * 4);
    JoinSplit2(x, y);
    assert bs == [x as char, y as char];
  }

  lemma {:induction false} DecodeFullGroup(bs: string)
    requires IsByteString(bs) && |bs| >= 3
    requires DecodeGroups(Encode(bs[3..])) == Some(bs[3..])
    ensures DecodeGroups(Encode(bs)) == Some(bs)
  {
    var x, y, z := bs[0] as int, bs[1] as int, bs[2] as int;
    var a, b, c, d := x / 4, (x % 4) * 16 + y / 16, (y % 16) * 4 + z / 64, z % 64;
    assert Encode(bs) == [Alphabet(a), Alphabet(b), Alphabet(c), Alphabet(d)] + Encode(bs[3..]);
    DecodeFull(a, b, c, d, Encode(bs[3..]), bs[3..]);
    JoinSplit3(x, y, z);
    assert x as char == bs[0] && y as char == bs[1] && z as char == bs[2];
    ThreeAndRest(bs);
  }

  lemma {:induction false} ThreeAndRest(s: string)
    requires |s| >= 3
    ensures s == [s[0], s[1], s[2]] + s[3..]
  {
  }

  lemma {:induction false} DecodeGroupsEncode(bs: string)
    requires IsByteString(bs)
    ensures DecodeGroups(Encode(bs)) == Some(bs)
    decreases |bs|
  {
    if |bs| == 1 {
      DecodeLastGroup1(bs);
    } else if |bs| == 2 {
      DecodeLastGroup2(bs);
    } else if |bs| >= 3 {
      DecodeGroupsEncode(bs[3..]);
      DecodeFullGroup(bs);
    }
  }

  /** Decoding undoes encoding. */
  lemma {:induction false} DecodeEncode(bs: string)
    requires IsByteString(bs)
    ensures Decode(Encode(bs)) == Some(bs)
  {
    StripKeepsClean(Encode(bs));
    DecodeGroupsEncode(bs);
  }

  /** The text the group decoder accepts: whole groups of four, every
      character in the alphabet except `=` padding, which may only fill the
      last one or two places. */
  predicate WellPadded(t: string) {
    && |t| % 4 == 0
    && forall i | 0 <= i < |t| ::
         if t[i] == '=' then i >= |t| - 2 && t[|t| - 1] == '=' else SextetOf(t[i]).Some?
  }

  /** The group decoder fails on exactly the text that is not well padded,
      and four characters carry three bytes, the last group fewer. */
  lemma {:induction false} DecodeGroupsAccepts(t: string)
    ensures DecodeGroups(t).Some? <==> WellPadded(t)
    ensures DecodeGroups(t).Some? ==> |t| == 4 * ((|DecodeGroups(t).value| + 2) / 3)
    decreases |t|
  {
    if |t| >= 4 {
      DecodeGroupsAccepts(t[4..]);
      if DecodeGroups(t).Some? {
        AcceptedIsWellPadded(t);
      } else if WellPadded(t) {
        WellPaddedIsAccepted(t);
      }
    }
  }

  /** After a group of four alphabet characters, the text is well padded
      iff the rest is. */
  lemma {:induction false} WellPaddedAfterGroup(t: string)
    requires |t| >= 4
    requires forall i | 0 <= i < 4 :: t[i] != '=' && SextetOf(t[i]).Some?
    ensures WellPadded(t) <==> WellPadded(t[4..])
  {
    var rest := t[4..];
    if WellPadded(t) {
      forall i | 0 <= i < |rest|
        ensures if rest[i] == '=' then i >= |rest| - 2 && rest[|rest| - 1] == '=' else SextetOf(rest[i]).Some?
      {
        assert rest[i] == t[i + 4];
        assert rest[|rest| - 1] == t[|t| - 1];
      }
    }
    if WellPadded(rest) {
      forall i | 4 <= i < |t|
        ensures if t[i] == '=' then i >= |t| - 2 && t[|t| - 1] == '=' else SextetOf(t[i]).Some?
      {
        assert t[i] == rest[i - 4];
        assert t[|t| - 1] == rest[|rest| - 1];
      }
    }
  }

  /** A decoded group is four alphabet characters, or the padded last one. */
  lemma {:induction false} AcceptedIsWellPadded(t: string)
    requires |t| >= 4 && DecodeGroups(t).Some?
    requires DecodeGroups(t[4..]).Some? ==>
               (WellPadded(t[4..]) && |t[4..]| == 4 * ((|DecodeGroups(t[4..]).value| + 2) / 3))
    ensures WellPadded(t) && |t| == 4 * ((|DecodeGroups(t).value| + 2) / 3)
  {
    if t[2] == '=' || t[3] == '=' {
      AcceptedLastGroup(t);
    } else {
      FullGroupStep(t);
      WellPaddedAfterGroup(t);
      GroupLength(|DecodeGroups(t[4..]).value|);
    }
  }

  /** Three more bytes take one more group. */
  lemma {:induction false} GroupLength(n: nat)
    ensures 4 * ((n + 3 + 2) / 3) == 4 + 4 * ((n + 2) / 3)
  {
  }

  /** A group of four alphabet characters decodes to three bytes in front
      of whatever the rest decodes to. */
  lemma {:induction false} FullGroupStep(t: string)
    requires |t| >= 4 && DecodeGroups(t).Some? && t[2] != '=' && t[3] != '='
    ensures forall i | 0 <= i < 4 :: t[i] != '=' && SextetOf(t[i]).Some?
    ensures DecodeGroups(t[4..]).Some?
    ensures |DecodeGroups(t).value| == 3 + |DecodeGroups(t[4..]).value|
  {
  }

  /** A decoded group with padding is the whole text: two alphabet
      characters and `==`, or three and `=`. */
  lemma {:induction false} AcceptedLastGroup(t: string)
    requires |t| >= 4 && DecodeGroups(t).Some? && (t[2] == '=' || t[3] == '=')
    ensures WellPadded(t) && |t| == 4 * ((|DecodeGroups(t).value| + 2) / 3)
  {
    assert |t| == 4;
    assert SextetOf(t[0]).Some? && SextetOf(t[1]).Some?;
    assert t[2] != '=' ==> SextetOf(t[2]).Some?;
  }

  /** Well-padded text decodes, given that its tail does. */
  lemma {:induction false} WellPaddedIsAccepted(t: string)
    requires |t| >= 4 && WellPadded(t)
    requires WellPadded(t[4..]) ==> DecodeGroups(t[4..]).Some?
    ensures DecodeGroups(t).Some?
  {
    assert t[0] != '=' && t[1] != '=';
    if t[2] != '=' && t[3] != '=' {
      WellPaddedAfterGroup(t);
    }
  }

  /** `Decode` accepts exactly the text that is well padded once its line
      breaks are removed, and its output has the length that text encodes. */
  lemma {:induction false} DecodeAccepts(s: string)
    ensures Decode(s).Some? <==> WellPadded(StripLineBreaks(s))
    ensures Decode(s).Some? ==> |StripLineBreaks(s)| == 4 * ((|Decode(s).value| + 2) / 3)
  {
    DecodeGroupsAccepts(StripLineBreaks(s));
  }

  /** Input whose length, line breaks aside, is not a multiple of four is
      rejected. */
  lemma {:induction false} DecodeNeedsWholeGroups(s: string)
    requires |s| % 4 != 0
    ensures DecodeGroups(s) == None
    decreases |s|
  {
    if |s| > 4 {
      DecodeNeedsWholeGroups(s[4..]);
    }
  }
}

=== FILE: certificate.dfy ===
/** The one persisted entity, a certificate row, and the table that holds
    the rows (backend/models/certificate.go). */
module Certificates {

  /** A certificate row without the ORM's bookkeeping columns (ID and the
      created/updated/deleted timestamps).  `certType` is the Go field
      `Type`; `generated` is the only lifecycle flag: false while the code
      is issued and unused, true once it has been redeemed. */
  datatype Certificate = Certificate(
    code: string,
    certType: string,
    name: string,
    email: string,
    tags: string,
    date: string,
    generated: bool)

  /** The Certificate table, keyed by the unique Code column. */
  type Store = map<string, Certificate>

  /** The unique constraint on Code, stated for the map: every row is filed
      under its own code, so no two rows can share one. */
  predicate WellKeyed(s: Store) {
    forall c | c in s :: s[c].code == c
  }

  /** The rows that carry a given code: what `WHERE code = ?` selects. */
  function RowsWithCode(s: Store, code: string): (keys: set<string>)
    requires WellKeyed(s)
    ensures keys <= {code}
    ensures keys == {code} <==> code in s
  {
    set k | k in s && s[k].code == code
  }

  /** A calendar date as the clock reports it (year, month 1-12, day 1-31). */
  datatype CalendarDate = CalendarDate(year: nat, month: nat, day: nat)

  type Date = d: CalendarDate | 1 <= d.month <= 12 && 1 <= d.day <= 31
    witness CalendarDate(2024, 9, 11)
}

=== FILE: database.dfy ===
/** Package `database` (backend/database/database.go): queries and writes
    on the Certificate table, with the table as an immutable map.  Writes
    take an `ok` flag that stands for the storage engine's own success or
    failure; a failed write leaves the table as it was. */
module Database {
  import opened Optional
  import opened Certificates
  import Decimal

  /** The outcome of a write: whether gorm reported an error, and the table
      afterwards. */
  datatype Written = Written(err: bool, store: Store)

  /** A row `CleanDatabase` purges: no type and never redeemed. */
  predicate IsOrphan(c: Certificate) {
    c.certType == "" && !c.generated
  }

  /** Deletes exactly the orphaned rows; every other row survives as it was. */
  function CleanDatabase(s: Store, ok: bool): (r: Written)
    requires WellKeyed(s)
    ensures WellKeyed(r.store)
    ensures r.err <==> !ok
    ensures !ok ==> r.store == s
    ensures ok ==> forall k :: k in r.store <==> k in s && !IsOrphan(s[k])
    ensures forall k | k in r.store :: k in s && r.store[k] == s[k]
  {
    if !ok then Written(true, s)
    else Written(false, map k | k in s && !IsOrphan(s[k]) :: s[k])
  }

  /** After a successful purge nothing is purge-eligible, so a second purge
      changes nothing. */
  lemma {:induction false} CleanIsIdempotent(s: Store)
    requires WellKeyed(s)
    ensures forall k | k in CleanDatabase(s, true).store :: !IsOrphan(CleanDatabase(s, true).store[k])
    ensures CleanDatabase(CleanDatabase(s, true).store, true).store == CleanDatabase(s, true).store
  {
  }

  /** Number of rows; zero when the count query fails. */
  function GetTotalEntries(s: Store, ok: bool): (n: nat)
    ensures ok ==> n == |s.Keys|
    ensures !ok ==> n == 0
  {
    if ok then |s| else 0
  }

  function UnusedKeys(s: Store): set<string> {
    set k | k in s && !s[k].generated
  }

  function RedeemedKeys(s: Store): set<string> {
    set k | k in s && s[k].generated
  }

  /** Number of rows with `generated = false`; zero when the query fails. */
  function GetUnusedEntries(s: Store, ok: bool): (n: nat)
    ensures ok ==> n == |UnusedKeys(s)|
    ensures !ok ==> n == 0
  {
    if ok then |UnusedKeys(s)| else 0
  }

  /** Unused and redeemed rows partition the table, so the unused count
      never exceeds the total. */
  lemma {:induction false} UnusedAtMostTotal(s: Store, ok: bool)
    ensures |UnusedKeys(s)| + |RedeemedKeys(s)| == |s|
    ensures GetUnusedEntries(s, ok) <= GetTotalEntries(s, ok)
  {
    assert UnusedKeys(s) + RedeemedKeys(s) == s.Keys;
    assert UnusedKeys(s) !! RedeemedKeys(s);
  }

  /** The types that occur in the table (the groups of `GROUP BY type`). */
  function TypesOf(s: Store): set<string> {
    set k | k in s :: s[k].certType
  }

  function KeysOfType(s: Store, t: string): set<string> {
    set k | k in s && s[k].certType == t
  }

  /** Row count per type over ALL rows, redeemed or not; `None` is the nil
      map returned when the query fails. */
  function GetEntriesByType(s: Store, ok: bool): (r: Option<map<string, nat>>)
    ensures r.None? <==> !ok
    ensures r.Some? ==> forall t :: t in r.value <==> exists k | k in s :: s[k].certType == t
    ensures r.Some? ==> forall t | t in r.value :: r.value[t] == |KeysOfType(s, t)|
    ensures r.Some? ==> forall t | t in r.value :: 1 <= r.value[t] <= |s|
  {
    if !ok then None
    else
      CountsBounded(s);
      Some(CountsFor(s, TypesOf(s)))
  }

  function CountsFor(s: Store, types: set<string>): (m: map<string, nat>)
    ensures m.Keys == types
    ensures forall t | t in m :: m[t] == |KeysOfType(s, t)|
  {
    map t | t in types :: |KeysOfType(s, t)|
  }

  /** The sum of `m`'s values over the given keys. */
  ghost function SumOver(m: map<string, nat>, keys: set<string>): nat
    requires keys <= m.Keys
    decreases keys
  {
    if keys == {} then 0
    else
      var t :| t in keys;
      m[t] + SumOver(m, keys - {t})
  }

  /** The sum of all values of a count map. */
  ghost function SumCounts(m: map<string, nat>): nat {
    SumOver(m, m.Keys)
  }

  /** `SumOver` may peel off any key, not only the one it chose. */
  lemma {:induction false} SumOverRemove(m: map<string, nat>, keys: set<string>, t: string)
    requires keys <= m.Keys && t in keys
    ensures SumOver(m, keys) == m[t] + SumOver(m, keys - {t})
    decreases keys
  {
    var u :| u in keys && SumOver(m, keys) == m[u] + SumOver(m, keys - {u});
    if u != t {
      SumOverRemove(m, keys - {u}, t);
      SumOverRemove(m, keys - {t}, u);
      assert keys - {u} - {t} == keys - {t} - {u};
    }
  }

  function KeysWithTypeIn(s: Store, types: set<string>): set<string> {
    set k | k in s && s[k].certType in types
  }

  /** Summing the per-type counts over some types counts the rows whose
      type is among them. */
  lemma {:induction false} SumOfCounts(s: Store, types: set<string>)
    requires types <= TypesOf(s)
    ensures SumOver(CountsFor(s, TypesOf(s)), types) == |KeysWithTypeIn(s, types)|
    decreases types
  {
    var m := CountsFor(s, TypesOf(s));
    if types == {} {
      assert KeysWithTypeIn(s, types) == {};
    } else {
      var t :| t in types;
      SumOverRemove(m, types, t);
      SumOfCounts(s, types - {t});
      SplitOffType(s, types, t);
    }
  }

  /** The rows whose type is among `types` are those of type `t` and,
      apart from them, those whose type is among the others. */
  lemma {:induction false} SplitOffType(s: Store, types: set<string>, t: string)
    requires t in types
    ensures |KeysWithTypeIn(s, types)| == |KeysOfType(s, t)| + |KeysWithTypeIn(s, types - {t})|
  {
    assert KeysWithTypeIn(s, types) == KeysOfType(s, t) + KeysWithTypeIn(s, types - {t});
    assert KeysOfType(s, t) !! KeysWithTypeIn(s, types - {t});
  }

  /** The per-type counts add up to the total number of rows, because the
      grouping has no `generated` filter. */
  lemma {:induction false} EntriesByTypeSumToTotal(s: Store)
    ensures GetEntriesByType(s, true).Some?
    ensures SumCounts(GetEntriesByType(s, true).value) == GetTotalEntries(s, true)
  {
    SumOfCounts(s, TypesOf(s));
    assert KeysWithTypeIn(s, TypesOf(s)) == s.Keys;
  }

  /** The rows with `generated = false`. */
  function UnusedRows(s: Store): (u: Store)
    ensures u.Keys == UnusedKeys(s)
    ensures forall k | k in u :: u[k] == s[k]
  {
    map k | k in s && !s[k].generated :: s[k]
  }

  function UnusedKeysOfType(s: Store, t: string): set<string> {
    set k | k in s && !s[k].generated && s[k].certType == t
  }

  /** Row count per type over the UNUSED rows only: the statistic the
      start-up log of backend/main.go prints as `Type "…" unused n`. */
  function GetUnusedEntriesByType(s: Store, ok: bool): (r: Option<map<string, nat>>)
    ensures r.None? <==> !ok
    ensures r.Some? ==> forall t :: t in r.value <==> exists k | k in s :: !s[k].generated && s[k].certType == t
    ensures r.Some? ==> forall t | t in r.value :: r.value[t] == |UnusedKeysOfType(s, t)|
  {
    var u := UnusedRows(s);
    assert forall t :: KeysOfType(u, t) == UnusedKeysOfType(s, t);
    GetEntriesByType(u, ok)
  }

  /** The unused per-type counts add up to the number of unused rows. */
  lemma {:induction false} UnusedByTypeSumToUnused(s: Store)
    ensures GetUnusedEntriesByType(s, true).Some?
    ensures SumCounts(GetUnusedEntriesByType(s, true).value) == GetUnusedEntries(s, true)
  {
    EntriesByTypeSumToTotal(UnusedRows(s));
  }

  /** A table whose only row is a redeemed `Gold` certificate. */
  const OneRedeemedGold: Store := map["c" := Certificate("c", "Gold", "n", "e", "", "01.01.2025", true)]

  /** `GetEntriesByType` counts redeemed rows too: on a table with no
      unused row it still reports one `Gold`, while the unused counts are
      empty. */
  lemma EntriesByTypeCountsRedeemed()
    ensures GetUnusedEntries(OneRedeemedGold, true) == 0
    ensures GetEntriesByType(OneRedeemedGold, true).value == map["Gold" := 1]
    ensures GetUnusedEntriesByType(OneRedeemedGold, true).value == map[]
  {
    var s := OneRedeemedGold;
    assert UnusedKeys(s) == {};
    assert "c" in s && s["c"].certType == "Gold";
    assert TypesOf(s) == {"Gold"};
    assert KeysOfType(s, "Gold") == {"c"};
    assert CountsFor(s, TypesOf(s)) == map["Gold" := 1];
  }

  /** Each type that occurs has between one and |s| rows. */
  lemma {:induction false} CountsBounded(s: Store)
    ensures forall t | t in TypesOf(s) :: 1 <= |KeysOfType(s, t)| <= |s|
  {
    forall t | t in TypesOf(s)
      ensures 1 <= |KeysOfType(s, t)| <= |s|
    {
      var k :| k in s && s[k].certType == t;
      assert k in KeysOfType(s, t);
      SubsetCard(KeysOfType(s, t), s.Keys);
    }
  }

  lemma {:induction false} SubsetCard(a: set<string>, b: set<string>)
    requires a <= b
    ensures |a| <= |b|
    decreases a
  {
    if a != {} {
      var x :| x in a;
      SubsetCard(a - {x}, b - {x});
    }
  }

  /** The layout `01.02.2006`: month and day zero-padded to two digits, then
      the year padded to at least four. */
  function FormatDate(d: Date): (r: string)
    ensures |r| >= 10 && r[2] == '.' && r[5] == '.'
    ensures d.year < 10000 ==> |r| == 10
    ensures Decimal.AllDigits(r[..2]) && Decimal.Value(r[..2]) == d.month
    ensures Decimal.AllDigits(r[3..5]) && Decimal.Value(r[3..5]) == d.day
    ensures Decimal.AllDigits(r[6..]) && Decimal.Value(r[6..]) == d.year
  {
    var mm := Decimal.PadZeros(Decimal.Digits(d.month), 2);
    var dd := Decimal.PadZeros(Decimal.Digits(d.day), 2);
    var yyyy := Decimal.PadZeros(Decimal.Digits(d.year), 4);
    Decimal.PaddedField(d.month, 2);
    Decimal.PaddedField(d.day, 2);
    Decimal.PaddedValue(d.year, 4);
    YearWidth(d.year);
    DottedFields(mm, dd, yyyy);
    mm + "." + dd + "." + yyyy
  }

  lemma {:induction false} DottedFields(mm: string, dd: string, yyyy: string)
    requires |mm| == 2 && |dd| == 2
    ensures var r := mm + "." + dd + "." + yyyy;
      && |r| == 6 + |yyyy| && r[2] == '.' && r[5] == '.'
      && r[..2] == mm && r[3..5] == dd && r[6..] == yyyy
  {
  }

  lemma {:induction false} YearWidth(year: nat)
    ensures year < 10000 ==> |Decimal.PadZeros(Decimal.Digits(year), 4)| == 4
  {
    if year < 10000 {
      Decimal.DigitsLength(year, 4);
    }
  }

  /** Redeems a row: stores `c` with `generated` set and the date stamped,
      as an upsert on its code.  No other row changes. */
  function AssignEntry(s: Store, c: Certificate, today: Date, ok: bool): (r: Written)
    requires WellKeyed(s)
    ensures WellKeyed(r.store)
    ensures r.err <==> !ok
    ensures !ok ==> r.store == s
    ensures ok ==> r.store.Keys == s.Keys + {c.code}
    ensures ok ==> var n := r.store[c.code];
      && n.generated && n.date == FormatDate(today)
      && n.code == c.code && n.certType == c.certType && n.name == c.name
      && n.email == c.email && n.tags == c.tags
    ensures forall k | k in s && k != c.code :: k in r.store && r.store[k] == s[k]
  {
    if !ok then Written(true, s)
    else Written(false, s[c.code := c.(generated := true, date := FormatDate(today))])
  }

  /** `WHERE code = ? AND generated = ?`, first match; `ok` is false when
      the query itself fails, which the callers cannot tell from "no row". */
  function GetEntry(s: Store, code: string, used: bool, ok: bool): (r: Option<Certificate>)
    requires WellKeyed(s)
    ensures r.Some? <==> ok && exists k | k in RowsWithCode(s, code) :: s[k].generated == used
    ensures r.Some? ==> r.value in s.Values && r.value.code == code && r.value.generated == used
  {
    if ok && code in s && s[code].generated == used then Some(s[code]) else None
  }

  /** `WHERE code = ?` delete: removes the rows the code selects whatever
      their state, and does not report whether any row matched. */
  function DeleteEntry(s: Store, code: string, ok: bool): (r: Written)
    requires WellKeyed(s)
    ensures WellKeyed(r.store)
    ensures r.err <==> !ok
    ensures !ok ==> r.store == s
    ensures ok ==> r.store.Keys == s.Keys - RowsWithCode(s, code)
    ensures forall k | k in r.store :: k in s && r.store[k] == s[k]
  {
    if !ok then Written(true, s) else Written(false, s - {code})
  }

  /** gorm's `Create`: inserts a row, failing on a storage error or when
      the code is already taken by a live row (the table is keyed by code,
      so that is `c.code in s`).  Codes of soft-deleted rows, which the
      unique index on Code still holds, are not modelled. */
  function Create(s: Store, c: Certificate, ok: bool): (r: Written)
    requires WellKeyed(s)
    ensures WellKeyed(r.store)
    ensures r.err <==> !ok || c.code in s
    ensures r.err ==> r.store == s
    ensures !r.err ==> r.store == s[c.code := c] && |r.store| == |s| + 1
  {
    if !ok || c.code in s then Written(true, s)
    else Written(false, s[c.code := c])
  }
}

=== FILE: decimal.dfy ===
/** Decimal digit strings: the notation read by Go's `strconv.Atoi` (the
    `count` query parameter) and written, zero-padded, by `time.Format`
    (the assignment date). */
module Decimal {
  import opened Optional

  predicate IsDigit(c: char) {
    '0' <= c <= '9'
  }

  predicate AllDigits(s: string) {
    forall i | 0 <= i < |s| :: IsDigit(s[i])
  }

  function DigitValue(c: char): nat
    requires IsDigit(c)
  {
    (c as int) - ('0' as int)
  }

  function DigitChar(d: nat): (c: char)
    requires d < 10
    ensures IsDigit(c) && DigitValue(c) == d
  {
    (('0' as int) + d) as char
  }

  /** The number a digit string denotes, most significant digit first. */
  function Value(s: string): nat
    requires AllDigits(s)
    decreases |s|
  {
    if s == [] then 0 else 10 * Value(s[..|s| - 1]) + DigitValue(s[|s| - 1])
  }

  /** The shortest decimal spelling of `n`: at least one digit and no
      leading zero unless `n` is zero. */
  function Digits(n: nat): (r: string)
    ensures AllDigits(r) && |r| >= 1
    ensures |r| > 1 ==> r[0] != '0'
    ensures n < 10 <==> |r| == 1
    decreases n
  {
    if n < 10 then [DigitChar(n)] else Digits(n / 10) + [DigitChar(n % 10)]
  }

  function Zeros(k: nat): (r: string)
    ensures |r| == k && AllDigits(r)
    ensures forall i | 0 <= i < k :: r[i] == '0'
  {
    seq(k, _ => '0')
  }

  /** `s` left-padded with zeros to at least `width` characters, as Go's
      layout elements `01`, `02` and `2006` pad. */
  function PadZeros(s: string, width: nat): (r: string)
    ensures |r| == if |s| < width then width else |s|
    ensures r[|r| - |s|..] == s
    ensures forall i | 0 <= i < |r| - |s| :: r[i] == '0'
  {
    if |s| < width then Zeros(width - |s|) + s else s
  }

  lemma {:induction false} ValueSnoc(s: string, c: char)
    requires AllDigits(s) && IsDigit(c)
    ensures AllDigits(s + [c])
    ensures Value(s + [c]) == 10 * Value(s) + DigitValue(c)
  {
    assert (s + [c])[..|s|] == s;
  }

  /** Reading back what `Digits` wrote yields the number again. */
  lemma {:induction false} ValueOfDigits(n: nat)
    ensures Value(Digits(n)) == n
    decreases n
  {
    if n >= 10 {
      ValueOfDigits(n / 10);
      ValueSnoc(Digits(n / 10), DigitChar(n % 10));
    }
  }

  lemma {:induction false} ValueAtLeastLeading(s: string)
    requires AllDigits(s) && |s| >= 1
    ensures Value(s) >= DigitValue(s[0])
    decreases |s|
  {
    if |s| > 1 {
      ValueAtLeastLeading(s[..|s| - 1]);
    }
  }

  /** The converse of `ValueOfDigits`: a digit string without a leading zero
      is the canonical spelling of its value. */
  lemma {:induction false} DigitsOfValue(s: string)
    requires AllDigits(s) && |s| >= 1
    requires |s| > 1 ==> s[0] != '0'
    ensures Digits(Value(s)) == s
    decreases |s|
  {
    if |s| > 1 {
      var p := s[..|s| - 1];
      assert p[0] == s[0];
      ValueAtLeastLeading(p);
      DigitsOfValue(p);
      assert s == p + [s[|s| - 1]];
    }
  }

  /** Leading zeros do not change the value of a digit string. */
  lemma {:induction false} ValueIgnoresZeros(k: nat, s: string)
    requires AllDigits(s)
    ensures AllDigits(Zeros(k) + s)
    ensures Value(Zeros(k) + s) == Value(s)
    decreases |s|
  {
    if s == [] {
      assert Zeros(k) + s == Zeros(k);
      ZerosValue(k);
    } else {
      var p := s[..|s| - 1];
      ValueIgnoresZeros(k, p);
      assert Zeros(k) + s == (Zeros(k) + p) + [s[|s| - 1]];
      ValueSnoc(Zeros(k) + p, s[|s| - 1]);
      ValueSnoc(p, s[|s| - 1]);
      assert s == p + [s[|s| - 1]];
    }
  }

  lemma {:induction false} ZerosValue(k: nat)
    ensures Value(Zeros(k)) == 0
    decreases k
  {
    if k > 0 {
      assert Zeros(k)[..k - 1] == Zeros(k - 1);
      ZerosValue(k - 1);
    }
  }

  /** Padding keeps the value: `PadZeros` only adds leading zeros. */
  lemma {:induction false} ValueOfPadded(s: string, width: nat)
    requires AllDigits(s)
    ensures AllDigits(PadZeros(s, width))
    ensures Value(PadZeros(s, width)) == Value(s)
  {
    if |s| < width {
      ValueIgnoresZeros(width - |s|, s);
    }
  }

  function Pow10(k: nat): nat {
    if k == 0 then 1 else 10 * Pow10(k - 1)
  }

  /** A number below 10^k needs at most k digits. */
  lemma {:induction false} DigitsLength(n: nat, k: nat)
    requires 1 <= k && n < Pow10(k)
    ensures |Digits(n)| <= k
    decreases k
  {
    if n >= 10 {
      assert k >= 2;
      DigitsLength(n / 10, k - 1);
    }
  }

  /** A number below 10^w, zero-padded to w places, fills exactly w digits
      and reads back as itself. */
  lemma {:induction false} PaddedField(n: nat, w: nat)
    requires 1 <= w && n < Pow10(w)
    ensures |PadZeros(Digits(n), w)| == w
    ensures AllDigits(PadZeros(Digits(n), w))
    ensures Value(PadZeros(Digits(n), w)) == n
  {
    DigitsLength(n, w);
    ValueOfDigits(n);
    ValueOfPadded(Digits(n), w);
  }

  /** Without an upper bound the padded spelling still reads back as n. */
  lemma {:induction false} PaddedValue(n: nat, w: nat)
    ensures AllDigits(PadZeros(Digits(n), w))
    ensures Value(PadZeros(Digits(n), w)) == n
  {
    ValueOfDigits(n);
    ValueOfPadded(Digits(n), w);
  }

  const MaxInt64: int := 0x7fff_ffff_ffff_ffff
  const MinInt64: int := -0x8000_0000_0000_0000

  /** `strconv.Atoi` on a 64-bit platform: an optional `+` or `-`, then one
      or more ASCII digits, denoting a value in the int64 range; anything
      else is a syntax or range error. */
  function Atoi(s: string): (r: Option<int>)
    ensures r.Some? ==> MinInt64 <= r.value <= MaxInt64
    ensures r.Some? ==> |s| >= 1 && (IsDigit(s[0]) || s[0] == '+' || s[0] == '-')
    ensures r.Some? && r.value < 0 ==> s[0] == '-'
    ensures r.Some? ==> forall i | 1 <= i < |s| :: IsDigit(s[i])
    ensures r.Some? && !IsDigit(s[0]) ==> |s| >= 2
    ensures r.Some? && IsDigit(s[0]) ==> r.value == Value(s)
    ensures r.Some? && s[0] == '+' ==> r.value == Value(s[1..])
    ensures r.Some? && s[0] == '-' ==> r.value == 0 - Value(s[1..])
  {
    if |s| == 0 then None
    else
      var signed := s[0] == '+' || s[0] == '-';
      var body := if signed then s[1..] else s;
      if |body| == 0 || !AllDigits(body) then None
      else
        var v: int := if s[0] == '-' then 0 - (Value(body) as int) else Value(body);
        if MinInt64 <= v <= MaxInt64 then Some(v) else None
  }

  /** The decimal spelling `strconv.Itoa` writes, the inverse of `Atoi`. */
  function Itoa(n: int): string {
    if n < 0 then "-" + Digits(-n) else Digits(n)
  }

  /** Atoi reads back every int64 that Itoa writes. */
  lemma {:induction false} AtoiOfItoa(n: int)
    requires MinInt64 <= n <= MaxInt64
    ensures Atoi(Itoa(n)) == Some(n)
  {
    if n < 0 {
      var d := Digits(-n);
      var s := "-" + d;
      assert s[0] == '-' && s[1..] == d;
      ValueOfDigits(-n);
      assert Value(s[1..]) == -n;
    } else {
      var d := Digits(n);
      ValueOfDigits(n);
      assert d[0] != '+' && d[0] != '-' by {
        assert IsDigit(d[0]);
      }
    }
  }

  /** The other round trip: every canonical spelling Atoi accepts (no `+`,
      no leading zero, no `-0`) is what Itoa writes for its value. */
  lemma {:induction false} ItoaOfAtoi(s: string)
    requires Atoi(s).Some? && s[0] != '+'
    requires IsDigit(s[0]) && |s| > 1 ==> s[0] != '0'
    requires s[0] == '-' ==> s[1] != '0'
    ensures Itoa(Atoi(s).value) == s
  {
    if s[0] == '-' {
      var body := s[1..];
      assert body[0] == s[1];
      ValueAtLeastLeading(body);
      DigitsOfValue(body);
      assert s == "-" + body;
    } else {
      DigitsOfValue(s);
    }
  }

  /** A leading `+` is accepted and changes nothing. */
  lemma {:induction false} AtoiPlusSign(s: string)
    requires |s| >= 1 && IsDigit(s[0])
    ensures Atoi("+" + s) == Atoi(s)
  {
    assert ("+" + s)[1..] == s;
  }
}

=== FILE: handlers.dfy ===
/** Package `handlers` (backend/handlers/certificateHandler.go).  Each
    endpoint is a function from the table and the request's fields to the
    reply and the table afterwards.  Per code the lifecycle is: issued
    (`generated = false`), redeemed (`generated = true`), gone. */
module Handlers {
  import opened Optional
  import opened Certificates
  import opened Http
  import Database
  import Render
  import Decimal

  /** Prefix of the artifact URLs of a redemption. */
  const ImageBase := "https://zertifikat.austromagnum.at/img/"
  /** Prefix of the URLs a batch create hands out. */
  const CodeBase := "https://zertifikat.austromagnum.at/img/?code="

  predicate IsUnused(s: Store, code: string) {
    code in s && !s[code].generated
  }

  predicate IsRedeemed(s: Store, code: string) {
    code in s && s[code].generated
  }

  // ---------------------------------------------------------------- validate

  /** GET /valide?code=: the row, if the code is issued and unused and the
      lookup does not fail (`readOk`). */
  function ValidateCode(s: Store, code: string, readOk: bool): (r: Outcome)
    requires WellKeyed(s)
    ensures r.store == s
    ensures IsUnused(s, code) && readOk ==> r.reply == Http(StatusOK, Record(s[code]))
    ensures !(IsUnused(s, code) && readOk) ==> r.reply == Http(StatusNotFound, Text("Invalid or used code"))
  {
    match Database.GetEntry(s, code, false, readOk)
    case None => Outcome(Http(StatusNotFound, Text("Invalid or used code")), s)
    case Some(cert) => Outcome(Http(StatusOK, Record(cert)), s)
  }

  // ------------------------------------------------------------------ redeem

  /** The decoded JSON body `{code, name, email}`, or a body that did not
      decode. */
  datatype RedeemRequest = Malformed | RedeemFields(code: string, name: string, email: string)

  /** What the world contributes to a redemption: today's date, whether the
      handler's lookup of the code succeeds, whether the row update is
      persisted, whether the renderer's own lookup of the redeemed row
      succeeds, whether the PDF file is written, and whether `pdftoppm`
      succeeds. */
  datatype RedeemEnv = RedeemEnv(today: Date, readOk: bool, saveOk: bool, pdfReadOk: bool, pdfWritten: bool, pngConverted: bool)

  datatype RedeemOutcome = RedeemOutcome(reply: Reply, store: Store, disk: Render.Disk)

  /** Whether the PDF of `code` is in the folder when the PNG conversion
      looks for it: freshly written, or left there earlier. */
  predicate PdfPresent(code: string, disk: Render.Disk, env: RedeemEnv) {
    (env.saveOk && env.pdfReadOk && env.pdfWritten) || Render.PdfFileName(code) in disk.files
  }

  /** POST /generiere: redeems an unused code for the requester's name and
      email, renders the artifacts and answers with their URLs. */
  function GenerateCertificate(s: Store, disk: Render.Disk, req: RedeemRequest, env: RedeemEnv): (r: RedeemOutcome)
    requires WellKeyed(s)
    ensures WellKeyed(r.store)
    ensures req.Malformed? ==> r == RedeemOutcome(Http(StatusBadRequest, Text("Invalid request")), s, disk)
    ensures req.RedeemFields? && !(IsUnused(s, req.code) && env.readOk) ==>
      r == RedeemOutcome(Http(StatusNotFound, Text("Invalid or used code")), s, disk)
    ensures req.RedeemFields? && IsUnused(s, req.code) && env.readOk ==>
      var c := req.code;
      && r.store.Keys == s.Keys
      && (forall k | k in s && k != c :: r.store[k] == s[k])
      && (!env.saveOk ==> r.store == s)
      && (env.saveOk ==>
            && r.store[c].generated
            && r.store[c].name == req.name && r.store[c].email == req.email
            && r.store[c].code == c && r.store[c].certType == s[c].certType
            && r.store[c].tags == s[c].tags
            && r.store[c].date == Database.FormatDate(env.today))
      && (!disk.folderExists ==> r.reply == ProcessExit)
      && (disk.folderExists ==>
            r.reply == Http(StatusOK, Redemption(
              "success", c,
              ImageBase + (if PdfPresent(c, disk, env) && env.pngConverted then Render.PngFileName(c) else ""),
              ImageBase + (if env.saveOk && env.pdfReadOk then Render.PdfFileName(c) else ""))))
  {
    match req
    case Malformed => RedeemOutcome(Http(StatusBadRequest, Text("Invalid request")), s, disk)
    case RedeemFields(code, name, email) =>
      match Database.GetEntry(s, code, false, env.readOk)
      case None => RedeemOutcome(Http(StatusNotFound, Text("Invalid or used code")), s, disk)
      case Some(cert) =>
        var updated := cert.(name := name, email := email);
        // the error AssignEntry reports is dropped
        var saved := Database.AssignEntry(s, updated, env.today, env.saveOk).store;
        var pdf := Render.GeneratePdf(saved, updated.code, disk, env.pdfReadOk, env.pdfWritten);
        match Render.ConvertPdfToPng(updated.code, pdf.disk, env.pngConverted)
        case Fatal => RedeemOutcome(ProcessExit, saved, pdf.disk)
        case Converted(pngName, disk') =>
          RedeemOutcome(
            Http(StatusOK, Redemption("success", updated.code, ImageBase + pngName, ImageBase + pdf.name)),
            saved, disk')
  }

  /** Once a redemption has been persisted, the code is spent: validating
      or redeeming it again answers 404 and changes nothing. */
  lemma {:induction false} RedeemedCodeIsSpent(s: Store, disk: Render.Disk, code: string, name: string, email: string,
                            env: RedeemEnv, readOk2: bool, disk2: Render.Disk, req2: RedeemRequest, env2: RedeemEnv)
    requires WellKeyed(s) && IsUnused(s, code) && env.readOk && env.saveOk
    requires req2.RedeemFields? && req2.code == code
    ensures var r := GenerateCertificate(s, disk, RedeemFields(code, name, email), env);
      && IsRedeemed(r.store, code)
      && ValidateCode(r.store, code, readOk2) == Outcome(Http(StatusNotFound, Text("Invalid or used code")), r.store)
      && GenerateCertificate(r.store, disk2, req2, env2)
         == RedeemOutcome(Http(StatusNotFound, Text("Invalid or used code")), r.store, disk2)
  {
  }

  /** The ignored AssignEntry error: when the update is not persisted the
      client is still told "success" (with an empty PDF name in the URL),
      and the code stays redeemable. */
  lemma {:induction false} RedeemReportsSuccessWhenSaveFails(s: Store, disk: Render.Disk, code: string, name: string, email: string, env: RedeemEnv)
    requires WellKeyed(s) && IsUnused(s, code) && env.readOk && !env.saveOk && disk.folderExists
    ensures var r := GenerateCertificate(s, disk, RedeemFields(code, name, email), env);
      && r.reply.Http? && r.reply.status == StatusOK
      && r.reply.body.Redemption? && r.reply.body.message == "success"
      && r.reply.body.pdfUrl == ImageBase
      && r.store == s
      && ValidateCode(r.store, code, true).reply == Http(StatusOK, Record(s[code]))
  {
  }

  /** The renderer looks the row up again: when that second lookup fails
      after a persisted redemption, the client gets `success` with an
      empty PDF name although the code is spent. */
  lemma {:induction false} PdfLookupFaultDropsPdfName(s: Store, disk: Render.Disk, code: string, name: string, email: string, env: RedeemEnv)
    requires WellKeyed(s) && IsUnused(s, code) && env.readOk && env.saveOk && !env.pdfReadOk && disk.folderExists
    ensures var r := GenerateCertificate(s, disk, RedeemFields(code, name, email), env);
      && r.reply.Http? && r.reply.status == StatusOK
      && r.reply.body.Redemption? && r.reply.body.pdfUrl == ImageBase
      && IsRedeemed(r.store, code)
  {
  }

  // ------------------------------------------------------------ owner delete

  /** Owner delete (`code` and `email` query parameters): removes the row
      iff it is redeemed, the lookup succeeds (`readOk`) and its stored
      email equals `email` exactly. */
  function DeleteCertificate(s: Store, code: string, email: string, readOk: bool, deleteOk: bool): (r: Outcome)
    requires WellKeyed(s)
    ensures WellKeyed(r.store)
    ensures r.reply == Http(StatusOK, Message("Certificate deleted"))
            <==> IsRedeemed(s, code) && readOk && s[code].email == email && deleteOk
    ensures r.reply != Http(StatusOK, Message("Certificate deleted")) ==>
            r.store == s && r.reply.Http? && r.reply.status == StatusNotFound
    ensures r.reply == Http(StatusOK, Message("Certificate deleted")) ==>
            r.store.Keys == s.Keys - {code} && forall k | k in r.store :: r.store[k] == s[k]
    ensures !(IsRedeemed(s, code) && readOk) ==> r.reply == Http(StatusNotFound, Text("Invalid code"))
    ensures IsRedeemed(s, code) && readOk && s[code].email != email ==> r.reply == Http(StatusNotFound, Text("Invalid email"))
  {
    match Database.GetEntry(s, code, true, readOk)
    case None => Outcome(Http(StatusNotFound, Text("Invalid code")), s)
    case Some(cert) =>
      if cert.email != email then Outcome(Http(StatusNotFound, Text("Invalid email")), s)
      else
        var w := Database.DeleteEntry(s, code, deleteOk);
        if w.err then Outcome(Http(StatusNotFound, Text("Invalid code")), s)
        else Outcome(Http(StatusOK, Message("Certificate deleted")), w.store)
  }

  // ------------------------------------------------------------ batch create

  /** A freshly issued row: type and tags set, nothing else. */
  function IssuedCertificate(code: string, certType: string, tags: string): Certificate {
    Certificate(code, certType, "", "", tags, "", false)
  }

  /** The state of the create loop when it stopped: how many codes went
      in (the answer lists the first that many) and the table.  The loop
      stopped at a failing insert iff fewer codes went in than were
      generated. */
  datatype Batch = Batch(inserted: nat, store: Store)

  /** The rows a batch adds: one issued row per code. */
  function IssuedRows(codes: seq<string>, certType: string, tags: string): Store {
    map c | c in codes :: IssuedCertificate(c, certType, tags)
  }

  /** The issued rows are filed under their codes, one per code. */
  lemma {:induction false} IssuedRowsKeyed(codes: seq<string>, certType: string, tags: string)
    ensures var m := IssuedRows(codes, certType, tags);
      WellKeyed(m) && forall c :: c in m <==> c in codes
  {
  }

  /** The insert loop of CreateCertificateCodes over the codes the
      generator produced (`codes`) and the storage outcome of each insert
      (`oks`).  It stops at the first failing insert; `InsertAllStore` says
      what the table holds afterwards. */
  function InsertAll(s: Store, certType: string, tags: string, codes: seq<string>, oks: seq<bool>): (b: Batch)
    requires WellKeyed(s) && |oks| == |codes|
    ensures b.inserted <= |codes|
    decreases |codes|
  {
    if codes == [] then Batch(0, s)
    else
      var w := Database.Create(s, IssuedCertificate(codes[0], certType, tags), oks[0]);
      if w.err then Batch(0, s)
      else
        var rest := InsertAll(w.store, certType, tags, codes[1..], oks[1..]);
        Batch(rest.inserted + 1, rest.store)
  }

  /** After the loop the table holds the old rows and an issued row for
      each code that went in, and nothing else. */
  lemma {:induction false} InsertAllStore(s: Store, certType: string, tags: string, codes: seq<string>, oks: seq<bool>)
    requires WellKeyed(s) && |oks| == |codes|
    ensures var b := InsertAll(s, certType, tags, codes, oks);
      b.store == s + IssuedRows(codes[..b.inserted], certType, tags)
    decreases |codes|
  {
    var b := InsertAll(s, certType, tags, codes, oks);
    if b.inserted == 0 {
      OverlayNothing(s, codes, certType, tags);
    } else {
      var w := Database.Create(s, IssuedCertificate(codes[0], certType, tags), oks[0]);
      InsertedStep(s, certType, tags, codes, oks);
      InsertAllStore(w.store, certType, tags, codes[1..], oks[1..]);
      IssuedRowsStep(s, codes, b.inserted - 1, certType, tags);
    }
  }

  lemma {:induction false} OverlayNothing(s: Store, codes: seq<string>, certType: string, tags: string)
    ensures s + IssuedRows(codes[..0], certType, tags) == s
  {
    assert IssuedRows(codes[..0], certType, tags) == map[];
  }

  /** Adding the first code's row and then the rows of the next `m` codes
      adds the rows of the first `m + 1` codes. */
  lemma {:induction false} IssuedRowsStep(s: Store, codes: seq<string>, m: nat, certType: string, tags: string)
    requires m + 1 <= |codes|
    ensures s[codes[0] := IssuedCertificate(codes[0], certType, tags)] + IssuedRows(codes[1..][..m], certType, tags)
            == s + IssuedRows(codes[..m + 1], certType, tags)
  {
    ConsPrefix(codes, m + 1);
    IssuedRowsKeyed(codes[..m + 1], certType, tags);
    IssuedRowsKeyed(codes[1..][..m], certType, tags);
    var lhs := s[codes[0] := IssuedCertificate(codes[0], certType, tags)] + IssuedRows(codes[1..][..m], certType, tags);
    var rhs := s + IssuedRows(codes[..m + 1], certType, tags);
    assert forall c :: c in codes[..m + 1] <==> c == codes[0] || c in codes[1..][..m];
    assert lhs.Keys == rhs.Keys;
  }

  /** The table after the loop, key by key: the old rows unchanged, the
      codes that went in as issued rows, and nothing else. */
  lemma {:induction false} InsertAllRows(s: Store, certType: string, tags: string, codes: seq<string>, oks: seq<bool>)
    requires WellKeyed(s) && |oks| == |codes|
    ensures var b := InsertAll(s, certType, tags, codes, oks);
      && WellKeyed(b.store)
      && (forall k :: k in b.store <==> k in s || k in codes[..b.inserted])
      && (forall k | k in b.store :: b.store[k] == if k in s then s[k] else IssuedCertificate(k, certType, tags))
  {
    var b := InsertAll(s, certType, tags, codes, oks);
    InsertAllStore(s, certType, tags, codes, oks);
    InsertedWereFresh(s, certType, tags, codes, oks);
    PrefixMembersFresh(s, codes, b.inserted);
    IssuedRowsKeyed(codes[..b.inserted], certType, tags);
    DisjointOverlay(s, IssuedRows(codes[..b.inserted], certType, tags), certType, tags);
  }

  lemma {:induction false} PrefixMembersFresh(s: Store, codes: seq<string>, n: nat)
    requires n <= |codes|
    requires forall j | 0 <= j < n :: codes[j] !in s
    ensures forall k | k in codes[..n] :: k !in s
  {
    forall k | k in codes[..n]
      ensures k !in s
    {
      var j :| 0 <= j < n && codes[..n][j] == k;
    }
  }

  /** Issued rows laid over a table they do not overlap keep its rows. */
  lemma {:induction false} DisjointOverlay(s: Store, added: Store, certType: string, tags: string)
    requires WellKeyed(s) && WellKeyed(added)
    requires forall k | k in added :: k !in s && added[k] == IssuedCertificate(k, certType, tags)
    ensures WellKeyed(s + added)
    ensures forall k | k in s + added :: (s + added)[k] == if k in s then s[k] else IssuedCertificate(k, certType, tags)
  {
  }

  /** The answer entries of a batch: each code with its URL. */
  function Entries(codes: seq<string>): (r: seq<CodeUrl>)
    ensures |r| == |codes|
    ensures forall j | 0 <= j < |codes| :: r[j].code == codes[j] && r[j].url == CodeBase + codes[j]
  {
    seq(|codes|, j requires 0 <= j < |codes| => CodeUrl(codes[j], CodeBase + codes[j]))
  }

  lemma {:induction false} ConsPrefix(xs: seq<string>, n: nat)
    requires 1 <= n <= |xs|
    ensures xs[..n] == [xs[0]] + xs[1..][..n - 1]
    ensures forall j | 1 <= j < |xs| :: xs[j] == xs[1..][j - 1]
  {
  }

  /** One step of the insert loop: after a successful first insert, the
      loop over the remaining codes inserts one code fewer. */
  lemma {:induction false} InsertedStep(s: Store, certType: string, tags: string, codes: seq<string>, oks: seq<bool>)
    requires WellKeyed(s) && |oks| == |codes| && codes != []
    requires !Database.Create(s, IssuedCertificate(codes[0], certType, tags), oks[0]).err
    ensures var w := Database.Create(s, IssuedCertificate(codes[0], certType, tags), oks[0]).store;
      InsertAll(s, certType, tags, codes, oks).inserted == InsertAll(w, certType, tags, codes[1..], oks[1..]).inserted + 1
  {
  }

  /** Every code that went in was absent from the live table and accepted by the
      storage engine. */
  lemma {:induction false} InsertedWereFresh(s: Store, certType: string, tags: string, codes: seq<string>, oks: seq<bool>)
    requires WellKeyed(s) && |oks| == |codes|
    ensures var b := InsertAll(s, certType, tags, codes, oks);
      forall j | 0 <= j < b.inserted :: oks[j] && codes[j] !in s
    decreases |codes|
  {
    if codes != [] {
      var w := Database.Create(s, IssuedCertificate(codes[0], certType, tags), oks[0]);
      if !w.err {
        InsertedStep(s, certType, tags, codes, oks);
        InsertedWereFresh(w.store, certType, tags, codes[1..], oks[1..]);
        var n := InsertAll(s, certType, tags, codes, oks).inserted;
        forall j | 1 <= j < n
          ensures oks[j] && codes[j] !in s
        {
          assert codes[j] == codes[1..][j - 1] && oks[j] == oks[1..][j - 1];
        }
      }
    }
  }

  /** The codes that went in are pairwise distinct. */
  lemma {:induction false} InsertedAreDistinct(s: Store, certType: string, tags: string, codes: seq<string>, oks: seq<bool>)
    requires WellKeyed(s) && |oks| == |codes|
    ensures var b := InsertAll(s, certType, tags, codes, oks);
      forall i, j | 0 <= i < j < b.inserted :: codes[i] != codes[j]
    decreases |codes|
  {
    if codes != [] {
      var w := Database.Create(s, IssuedCertificate(codes[0], certType, tags), oks[0]);
      if !w.err {
        InsertedWereFresh(w.store, certType, tags, codes[1..], oks[1..]);
        InsertedAreDistinct(w.store, certType, tags, codes[1..], oks[1..]);
        var b := InsertAll(s, certType, tags, codes, oks);
        forall i, j | 0 <= i < j < b.inserted
          ensures codes[i] != codes[j]
        {
          assert codes[j] == codes[1..][j - 1];
          if i > 0 {
            assert codes[i] == codes[1..][i - 1];
          }
        }
      }
    }
  }

  /** The table grows by exactly the number of codes that went in. */
  lemma {:induction false} InsertedGrowStore(s: Store, certType: string, tags: string, codes: seq<string>, oks: seq<bool>)
    requires WellKeyed(s) && |oks| == |codes|
    ensures var b := InsertAll(s, certType, tags, codes, oks);
      |b.store| == |s| + b.inserted
    decreases |codes|
  {
    if codes != [] {
      var w := Database.Create(s, IssuedCertificate(codes[0], certType, tags), oks[0]);
      if !w.err {
        InsertedGrowStore(w.store, certType, tags, codes[1..], oks[1..]);
      }
    }
  }

  /** A batch stops early only at an insert the storage engine refused or
      whose code was already in the table. */
  lemma {:induction false} InsertStopReason(s: Store, certType: string, tags: string, codes: seq<string>, oks: seq<bool>)
    requires WellKeyed(s) && |oks| == |codes|
    ensures var b := InsertAll(s, certType, tags, codes, oks);
      b.inserted < |codes| ==> !oks[b.inserted] || codes[b.inserted] in b.store
    decreases |codes|
  {
    if codes != [] {
      var w := Database.Create(s, IssuedCertificate(codes[0], certType, tags), oks[0]);
      if !w.err {
        InsertStopReason(w.store, certType, tags, codes[1..], oks[1..]);
        var rest := InsertAll(w.store, certType, tags, codes[1..], oks[1..]);
        if rest.inserted < |codes| - 1 {
          assert codes[rest.inserted + 1] == codes[1..][rest.inserted];
          assert oks[rest.inserted + 1] == oks[1..][rest.inserted];
        }
      }
    }
  }

  /** What the batch's inserts tell about the codes: every code that went
      in was fresh, accepted by the storage engine and unlike the others, so
      the table grew by exactly their number; a batch stops early only at
      an insert the storage engine refused or whose code was already taken. */
  lemma {:induction false} InsertAllAccounting(s: Store, certType: string, tags: string, codes: seq<string>, oks: seq<bool>)
    requires WellKeyed(s) && |oks| == |codes|
    ensures var b := InsertAll(s, certType, tags, codes, oks);
      && (forall j | 0 <= j < b.inserted :: oks[j] && codes[j] !in s)
      && (forall i, j | 0 <= i < j < b.inserted :: codes[i] != codes[j])
      && |b.store| == |s| + b.inserted
      && (b.inserted < |codes| ==> !oks[b.inserted] || codes[b.inserted] in b.store)
  {
    InsertedWereFresh(s, certType, tags, codes, oks);
    InsertedAreDistinct(s, certType, tags, codes, oks);
    InsertedGrowStore(s, certType, tags, codes, oks);
    InsertStopReason(s, certType, tags, codes, oks);
  }

  /** The table after the insert loop, in the terms the batch's answer
      needs: every old row kept, only issued rows added, and the rows of
      exactly the codes that went in. */
  lemma {:induction false} BatchRows(s: Store, certType: string, tags: string, codes: seq<string>, oks: seq<bool>)
    requires WellKeyed(s) && |oks| == |codes|
    ensures var b := InsertAll(s, certType, tags, codes, oks);
      && WellKeyed(b.store)
      && (forall k | k in s :: k in b.store && b.store[k] == s[k])
      && (forall k | k in b.store && k !in s :: b.store[k] == IssuedCertificate(k, certType, tags))
      && |b.store| == |s| + b.inserted
      && b.store == s + IssuedRows(codes[..b.inserted], certType, tags)
      && (b.inserted == |codes| ==> b.store == s + IssuedRows(codes, certType, tags))
  {
    InsertAllRows(s, certType, tags, codes, oks);
    InsertedGrowStore(s, certType, tags, codes, oks);
    InsertAllStore(s, certType, tags, codes, oks);
    assert codes[..|codes|] == codes;
  }

  /** A batch stopped at the `n`-th insert and left `store`: every code
      before it went in (accepted, absent from the live table and unlike the others), the table is
      the old one plus their rows, and the `n`-th insert was refused or its
      code was taken, by an old row or by one inserted earlier. */
  predicate StoppedAt(s: Store, store: Store, n: nat, certType: string, tags: string,
                      ulid: nat -> string, insertOk: nat -> bool)
  {
    && store == s + IssuedRows(FirstValues(ulid, n), certType, tags)
    && (forall j | 0 <= j < n :: insertOk(j) && ulid(j) !in s)
    && (forall i, j | 0 <= i < j < n :: ulid(i) != ulid(j))
    && (!insertOk(n) || ulid(n) in s || ulid(n) in FirstValues(ulid, n))
  }

  /** The `j`-th insert of a batch goes through: the storage engine accepts
      it and its code is neither an old row's nor an earlier insert's. */
  predicate InsertGoesThrough(s: Store, j: nat, ulid: nat -> string, insertOk: nat -> bool) {
    insertOk(j) && ulid(j) !in s && ulid(j) !in FirstValues(ulid, j)
  }

  /** The stop `StoppedAt` names is the first insert that does not go
      through, and the table is the old one plus the rows of the codes
      before it. */
  lemma {:induction false} StoppedAtFirstFailure(s: Store, store: Store, n: nat, certType: string, tags: string,
                                                 ulid: nat -> string, insertOk: nat -> bool)
    requires StoppedAt(s, store, n, certType, tags, ulid, insertOk)
    ensures forall j | 0 <= j < n :: InsertGoesThrough(s, j, ulid, insertOk)
    ensures !InsertGoesThrough(s, n, ulid, insertOk)
  {
    forall j | 0 <= j < n
      ensures InsertGoesThrough(s, j, ulid, insertOk)
    {
      forall i | 0 <= i < j
        ensures FirstValues(ulid, j)[i] != ulid(j)
      {
        assert ulid(i) != ulid(j);
      }
    }
  }

  /** So a batch cannot be said to have stopped at two places, or to have
      left two tables. */
  lemma {:induction false} StoppedAtIsUnique(s: Store, store1: Store, store2: Store, n1: nat, n2: nat,
                                             certType: string, tags: string, ulid: nat -> string, insertOk: nat -> bool)
    requires StoppedAt(s, store1, n1, certType, tags, ulid, insertOk)
    requires StoppedAt(s, store2, n2, certType, tags, ulid, insertOk)
    ensures n1 == n2 && store1 == store2
  {
    StoppedAtFirstFailure(s, store1, n1, certType, tags, ulid, insertOk);
    StoppedAtFirstFailure(s, store2, n2, certType, tags, ulid, insertOk);
  }

  /** Where the insert loop stopped when it did not complete: the codes
      before the stop went in, and the insert at the stop was refused or its
      code was already in the table before the batch or earlier in it. */
  lemma {:induction false} InsertAllStop(s: Store, certType: string, tags: string, codes: seq<string>, oks: seq<bool>)
    requires WellKeyed(s) && |oks| == |codes|
    ensures var b := InsertAll(s, certType, tags, codes, oks);
      var n := b.inserted;
      n < |codes| ==>
        && b.store == s + IssuedRows(codes[..n], certType, tags)
        && (forall j | 0 <= j < n :: oks[j] && codes[j] !in s)
        && (forall i, j | 0 <= i < j < n :: codes[i] != codes[j])
        && (!oks[n] || codes[n] in s || codes[n] in codes[..n])
  {
    InsertedWereFresh(s, certType, tags, codes, oks);
    InsertedAreDistinct(s, certType, tags, codes, oks);
    InsertStopReason(s, certType, tags, codes, oks);
    InsertAllRows(s, certType, tags, codes, oks);
    InsertAllStore(s, certType, tags, codes, oks);
  }

  /** A batch that did not complete stopped where `StoppedAt` says. */
  lemma {:induction false} BatchStop(s: Store, count: nat, certType: string, tags: string,
                                     ulid: nat -> string, insertOk: nat -> bool)
    requires WellKeyed(s)
    ensures var b := InsertAll(s, certType, tags, FirstValues(ulid, count), FirstValues(insertOk, count));
      b.inserted < count ==> StoppedAt(s, b.store, b.inserted, certType, tags, ulid, insertOk)
  {
    var codes, oks := FirstValues(ulid, count), FirstValues(insertOk, count);
    var b := InsertAll(s, certType, tags, codes, oks);
    InsertAllStop(s, certType, tags, codes, oks);
    if b.inserted < count {
      StoppedAtFirstValues(s, b.store, b.inserted, count, certType, tags, ulid, insertOk, codes, oks);
    }
  }

  /** The stop facts about the generated sequences, read back as facts
      about the generator and the storage outcomes. */
  lemma {:induction false} StoppedAtFirstValues(s: Store, store: Store, n: nat, count: nat, certType: string, tags: string,
                                              ulid: nat -> string, insertOk: nat -> bool, codes: seq<string>, oks: seq<bool>)
    requires codes == FirstValues(ulid, count) && oks == FirstValues(insertOk, count) && n < count
    requires store == s + IssuedRows(codes[..n], certType, tags)
    requires forall j | 0 <= j < n :: oks[j] && codes[j] !in s
    requires forall i, j | 0 <= i < j < n :: codes[i] != codes[j]
    requires !oks[n] || codes[n] in s || codes[n] in codes[..n]
    ensures StoppedAt(s, store, n, certType, tags, ulid, insertOk)
  {
    assert codes[..n] == FirstValues(ulid, n);
    assert codes[n] == ulid(n) && oks[n] == insertOk(n);
    forall j | 0 <= j < n
      ensures insertOk(j) && ulid(j) !in s
    {
      assert oks[j] && codes[j] !in s;
    }
    forall i, j | 0 <= i < j < n
      ensures ulid(i) != ulid(j)
    {
      assert codes[i] != codes[j];
    }
  }

  /** The loop of a batch create with a valid count and type: inserts the
      `count` generated codes until one insert fails.  It answers 200 with
      every code and its URL when all went in, else 500; the rows inserted
      before a failure stay. */
  function IssueCodes(s: Store, count: nat, certType: string, tags: string,
                      ulid: nat -> string, insertOk: nat -> bool): (r: Outcome)
    requires WellKeyed(s)
    ensures WellKeyed(r.store)
    ensures forall k | k in s :: k in r.store && r.store[k] == s[k]
    ensures forall k | k in r.store && k !in s :: r.store[k] == IssuedCertificate(k, certType, tags)
    ensures r.reply.Http? && (r.reply.status == StatusOK || r.reply.status == StatusInternalServerError)
    ensures r.reply.status == StatusOK ==>
      && r.reply.body.Codes? && |r.reply.body.codes| == count
      && (forall j | 0 <= j < count :: r.reply.body.codes[j] == CodeUrl(ulid(j), CodeBase + ulid(j)))
      && |r.store| == |s| + count
    ensures r.reply.status == StatusOK ==>
      r.store == s + IssuedRows(FirstValues(ulid, count), certType, tags)
    ensures r.reply.status == StatusInternalServerError ==>
      r.reply.body == Text("Failed to generate certificate code") && |r.store| < |s| + count
    ensures r.reply.status == StatusInternalServerError ==>
      exists n: nat | n < count :: StoppedAt(s, r.store, n, certType, tags, ulid, insertOk)
  {
    var codes := FirstValues(ulid, count);
    var b := InsertAll(s, certType, tags, codes, FirstValues(insertOk, count));
    BatchRows(s, certType, tags, codes, FirstValues(insertOk, count));
    BatchStop(s, count, certType, tags, ulid, insertOk);
    if b.inserted < count then Outcome(Http(StatusInternalServerError, Text("Failed to generate certificate code")), b.store)
    else Outcome(Http(StatusOK, Codes(Entries(codes))), b.store)
  }

  /** The `count` parameter as `strconv.Atoi` reads it, when that succeeds
      with a positive value. */
  function PositiveCount(countParam: string): (r: Option<nat>)
    ensures r.Some? <==> Decimal.Atoi(countParam).Some? && Decimal.Atoi(countParam).value > 0
    ensures r.Some? ==> r.value == Decimal.Atoi(countParam).value
  {
    match Decimal.Atoi(countParam)
    case None => None
    case Some(count) => if count <= 0 then None else Some(count)
  }

  /** GET /erstelle?count=&type=&tags=: checks the count, then the type, and
      then runs the batch loop.  `ulid(i)` is the code the generator yields
      on the i-th iteration and `insertOk(i)` the storage engine's outcome
      of that insert apart from the unique constraint. */
  function CreateCertificateCodes(s: Store, countParam: string, certType: string, tags: string,
                                  ulid: nat -> string, insertOk: nat -> bool): (r: Outcome)
    requires WellKeyed(s)
    ensures WellKeyed(r.store)
    ensures forall k | k in s :: k in r.store && r.store[k] == s[k]
    ensures PositiveCount(countParam).None? ==> r == Outcome(Http(StatusBadRequest, Text("Invalid count")), s)
    ensures PositiveCount(countParam).Some? && certType == "" ==>
      r == Outcome(Http(StatusBadRequest, Text("Invalid type")), s)
    ensures PositiveCount(countParam).Some? && certType != "" ==>
      r == IssueCodes(s, PositiveCount(countParam).value, certType, tags, ulid, insertOk)
    ensures r.reply.Http? && r.reply.status in {StatusOK, StatusBadRequest, StatusInternalServerError}
  {
    match PositiveCount(countParam)
    case None => Outcome(Http(StatusBadRequest, Text("Invalid count")), s)
    case Some(count) =>
      if certType == "" then Outcome(Http(StatusBadRequest, Text("Invalid type")), s)
      else IssueCodes(s, count, certType, tags, ulid, insertOk)
  }

  // ------------------------------------------------------------ admin delete

  /** GET|DELETE /loesche?code=: deletes the row whatever its state, once the
      code passes the ULID syntax check `isUlid`; success writes no body. */
  function DeleteCertificateCodes(s: Store, code: string, isUlid: string -> bool, deleteOk: bool): (r: Outcome)
    requires WellKeyed(s)
    ensures WellKeyed(r.store)
    ensures !(isUlid(code) && deleteOk) ==> r == Outcome(Http(StatusNotFound, Text("Invalid code")), s)
    ensures isUlid(code) && deleteOk ==>
      && r.reply == Http(StatusOK, NoBody)
      && r.store.Keys == s.Keys - {code}
      && forall k | k in r.store :: r.store[k] == s[k]
  {
    if !isUlid(code) then Outcome(Http(StatusNotFound, Text("Invalid code")), s)
    else
      var w := Database.DeleteEntry(s, code, deleteOk);
      if w.err then Outcome(Http(StatusNotFound, Text("Invalid code")), s)
      else Outcome(Http(StatusOK, NoBody), w.store)
  }

  /** With a valid count and type, a batch create answers 200 iff every
      generated code is absent from the live table and unlike the others and the
      storage engine accepts every insert; otherwise it answers 500. */
  lemma {:induction false} CreateSucceedsIffCodesFresh(s: Store, countParam: string, certType: string, tags: string,
                                    ulid: nat -> string, insertOk: nat -> bool)
    requires WellKeyed(s)
    requires PositiveCount(countParam).Some? && certType != ""
    ensures var count := PositiveCount(countParam).value;
      var r := CreateCertificateCodes(s, countParam, certType, tags, ulid, insertOk);
      && r.reply.Http? && (r.reply.status == StatusOK || r.reply.status == StatusInternalServerError)
      && (r.reply.status == StatusOK <==>
            && (forall j | 0 <= j < count :: insertOk(j) && ulid(j) !in s)
            && (forall i, j | 0 <= i < j < count :: ulid(i) != ulid(j)))
  {
    IssueCodesSucceedsIff(s, PositiveCount(countParam).value, certType, tags, ulid, insertOk);
  }

  /** The batch loop answers 200 iff every generated code is absent from the live
      table and unlike the others and every insert is accepted. */
  lemma {:induction false} IssueCodesSucceedsIff(s: Store, count: nat, certType: string, tags: string,
                              ulid: nat -> string, insertOk: nat -> bool)
    requires WellKeyed(s)
    ensures var r := IssueCodes(s, count, certType, tags, ulid, insertOk);
      && r.reply.Http? && (r.reply.status == StatusOK || r.reply.status == StatusInternalServerError)
      && (r.reply.status == StatusOK <==>
            && (forall j | 0 <= j < count :: insertOk(j) && ulid(j) !in s)
            && (forall i, j | 0 <= i < j < count :: ulid(i) != ulid(j)))
  {
    var codes := FirstValues(ulid, count);
    var oks := FirstValues(insertOk, count);
    IssueCodesStatus(s, count, certType, tags, ulid, insertOk);
    InsertAllSucceedsIff(s, certType, tags, codes, oks);
    assert (forall j | 0 <= j < count :: oks[j] && codes[j] !in s)
       <==> (forall j | 0 <= j < count :: insertOk(j) && ulid(j) !in s);
    FirstValuesDistinct(ulid, count);
  }

  lemma {:induction false} FirstValuesDistinct(ulid: nat -> string, count: nat)
    ensures var codes := FirstValues(ulid, count);
      (forall i, j | 0 <= i < j < count :: codes[i] != codes[j])
      <==> (forall i, j | 0 <= i < j < count :: ulid(i) != ulid(j))
  {
    var codes := FirstValues(ulid, count);
    if forall i, j | 0 <= i < j < count :: codes[i] != codes[j] {
      forall i, j | 0 <= i < j < count
        ensures ulid(i) != ulid(j)
      {
        assert codes[i] != codes[j];
      }
    } else {
      var i, j :| 0 <= i < j < count && codes[i] == codes[j];
      assert ulid(i) == ulid(j);
    }
  }

  /** The batch loop answers 200 exactly when every generated code went in. */
  lemma {:induction false} IssueCodesStatus(s: Store, count: nat, certType: string, tags: string,
                         ulid: nat -> string, insertOk: nat -> bool)
    requires WellKeyed(s)
    ensures var r := IssueCodes(s, count, certType, tags, ulid, insertOk);
      var b := InsertAll(s, certType, tags, FirstValues(ulid, count), FirstValues(insertOk, count));
      && r.reply.Http? && (r.reply.status == StatusOK || r.reply.status == StatusInternalServerError)
      && (r.reply.status == StatusOK <==> b.inserted == count)
  {
  }

  /** The first `count` values an oracle yields, in order. */
  function FirstValues<T>(oracle: nat -> T, count: nat): (r: seq<T>)
    ensures |r| == count
    ensures forall j | 0 <= j < count :: r[j] == oracle(j)
  {
    seq(count, j requires 0 <= j => oracle(j))
  }

  /** The insert loop runs to the end iff every insert is accepted and
      every code is absent from the live table and unlike
      the others. */
  lemma {:induction false} InsertAllSucceedsIff(s: Store, certType: string, tags: string, codes: seq<string>, oks: seq<bool>)
    requires WellKeyed(s) && |oks| == |codes|
    ensures InsertAll(s, certType, tags, codes, oks).inserted == |codes| <==>
      && (forall j | 0 <= j < |codes| :: oks[j] && codes[j] !in s)
      && (forall i, j | 0 <= i < j < |codes| :: codes[i] != codes[j])
  {
    var b := InsertAll(s, certType, tags, codes, oks);
    if b.inserted == |codes| {
      InsertedWereFresh(s, certType, tags, codes, oks);
      InsertedAreDistinct(s, certType, tags, codes, oks);
    } else {
      var n := b.inserted;
      InsertStopReason(s, certType, tags, codes, oks);
      if oks[n] && codes[n] !in s {
        InsertAllRows(s, certType, tags, codes, oks);
        assert codes[n] in b.store;
        assert codes[n] in codes[..n];
        var i :| 0 <= i < n && codes[..n][i] == codes[n];
        assert codes[i] == codes[n];
      }
    }
  }

  // ------------------------------------------------------- the state machine

  /** One request to any of the endpoints, with the oracles it consults. */
  datatype Call =
    | Validate(code: string, readOk: bool)
    | Redeem(disk: Render.Disk, req: RedeemRequest, env: RedeemEnv)
    | OwnerDelete(code: string, email: string, readOk: bool, deleteOk: bool)
    | Create(countParam: string, certType: string, tags: string, ulid: nat -> string, insertOk: nat -> bool)
    | AdminDelete(code: string, isUlid: string -> bool, deleteOk: bool)

  function Handle(s: Store, call: Call): (r: Outcome)
    requires WellKeyed(s)
  {
    match call
    case Validate(code, readOk) => ValidateCode(s, code, readOk)
    case Redeem(disk, req, env) =>
      var o := GenerateCertificate(s, disk, req, env);
      Outcome(o.reply, o.store)
    case OwnerDelete(code, email, readOk, ok) => DeleteCertificate(s, code, email, readOk, ok)
    case Create(countParam, certType, tags, ulid, ok) => CreateCertificateCodes(s, countParam, certType, tags, ulid, ok)
    case AdminDelete(code, isUlid, ok) => DeleteCertificateCodes(s, code, isUlid, ok)
  }

  /** Every endpoint keeps the codes unique and moves rows only forward
      through the lifecycle: new rows appear unused, a row that changes
      goes from unused to redeemed, and a redeemed row is never altered,
      only deleted. */
  lemma {:induction false} LifecycleOnlyMovesForward(s: Store, call: Call)
    requires WellKeyed(s)
    ensures var t := Handle(s, call).store;
      && WellKeyed(t)
      && (forall k | k in t && k !in s :: !t[k].generated)
      && (forall k | k in s && k in t && t[k] != s[k] :: !s[k].generated && t[k].generated)
  {
    match call
    case Validate(_, _) =>
    case Redeem(disk, req, env) =>
    case OwnerDelete(_, _, _, _) =>
    case Create(countParam, certType, tags, ulid, ok) =>
    case AdminDelete(_, _, _) =>
  }
}

=== FILE: http.dfy ===
/** What a handler leaves behind for the client, and the table afterwards.
    Go's `http.Error` becomes `Http(status, Text(message))`; a handler that
    writes nothing answers `Http(StatusOK, NoBody)`. */
module Http {
  import opened Certificates

  const StatusOK := 200
  const StatusBadRequest := 400
  const StatusUnauthorized := 401
  const StatusForbidden := 403
  const StatusNotFound := 404
  const StatusInternalServerError := 500

  /** One entry of the batch-create answer: `{"code": ..., "url": ...}`. */
  datatype CodeUrl = CodeUrl(code: string, url: string)

  datatype Body =
    | NoBody
      /** plain-text error written by `http.Error` */
    | Text(message: string)
      /** `http.Error` with the `WWW-Authenticate: Basic realm="Restricted"` header set */
    | Challenge(message: string)
      /** a certificate row encoded as JSON */
    | Record(cert: Certificate)
      /** `{"message": ...}` */
    | Message(message: string)
      /** `{"message", "code", "png_url", "pdf_url"}` of a redemption */
    | Redemption(message: string, code: string, pngUrl: string, pdfUrl: string)
      /** `{"codes": [...]}` of a batch create */
    | Codes(codes: seq<CodeUrl>)

  /** A written response, a panic (the server recovers it and drops the
      connection under HTTP/1.x or resets the stream under HTTP/2; no
      response is sent), or the end of the whole process. */
  datatype Reply = Http(status: int, body: Body) | Panicked | ProcessExit

  datatype Outcome = Outcome(reply: Reply, store: Store)
}

=== FILE: optional.dfy ===
/** The optional value every lookup and parser of the model returns:
    `None` plays the role of Go's non-nil `error` on paths where the error
    carries nothing the caller looks at. */
module Optional {

  datatype Option<+T> = None | Some(value: T)
}

=== FILE: render.dfy ===
/** The PDF functions of package `utils` (backend/utils/pdf.go), reduced to its
    observable contract: which file names it returns and which files it
    leaves in the certificate folder.  Drawing the page is abstracted into
    the boolean outcome of writing the PDF, and the external `pdftoppm`
    run into the boolean outcome of the conversion. */
module Render {
  import opened Certificates
  import Database

  /** The certificate folder: whether it exists, and the names of the files
      in it. */
  datatype Disk = Disk(folderExists: bool, files: set<string>)

  /** `<code>.pdf` */
  function PdfFileName(code: string): (r: string)
    ensures |r| == |code| + 4 && r[..|code|] == code && r[|code|..] == ".pdf"
  {
    code + ".pdf"
  }

  /** `<code>.png` */
  function PngFileName(code: string): (r: string)
    ensures |r| == |code| + 4 && r[..|code|] == code && r[|code|..] == ".png"
  {
    code + ".png"
  }

  /** Distinct codes get distinct artifact names, and a PDF name is never a
      PNG name, so no artifact overwrites another certificate's. */
  lemma {:induction false} ArtifactNamesDistinct(a: string, b: string)
    ensures PdfFileName(a) == PdfFileName(b) ==> a == b
    ensures PngFileName(a) == PngFileName(b) ==> a == b
    ensures PdfFileName(a) != PngFileName(b)
  {
    var p, q := PdfFileName(a), PngFileName(b);
    if |p| == |q| {
      assert p[|p| - 1] == 'f' && q[|q| - 1] == 'g';
    }
  }

  /** A file name the renderer returned: the artifact, or `""` for none. */
  datatype Rendered = Rendered(name: string, disk: Disk)

  /** `GeneratePDF(code)`: `""` when no redeemed row has this code or the
      lookup fails (`readOk` is false); otherwise the PDF's name, returned
      even when writing the file failed (`written` is false). */
  function GeneratePdf(s: Store, code: string, disk: Disk, readOk: bool, written: bool): (r: Rendered)
    requires WellKeyed(s)
    ensures r.name == "" <==> !readOk || !(code in s && s[code].generated)
    ensures r.name != "" ==> r.name == PdfFileName(code)
    ensures r.disk.folderExists == disk.folderExists
    ensures r.disk.files == if r.name != "" && written then disk.files + {PdfFileName(code)} else disk.files
  {
    match Database.GetEntry(s, code, true, readOk)
    case None => Rendered("", disk)
    case Some(cert) =>
      var fileName := PdfFileName(cert.code);
      if written then Rendered(fileName, disk.(files := disk.files + {fileName}))
      else Rendered(fileName, disk)
  }

  /** What `ConvertPDFToPNG` does: end the process (`log.Fatalf`) or
      return a name. */
  datatype Conversion = Fatal | Converted(name: string, disk: Disk)

  /** `ConvertPDFToPNG(code)`: the process ends when the folder is missing;
      `""` when the PDF is absent or `pdftoppm` fails (`converted` is
      false); otherwise the PNG's name, with the PNG now in the folder. */
  function ConvertPdfToPng(code: string, disk: Disk, converted: bool): (r: Conversion)
    ensures r.Fatal? <==> !disk.folderExists
    ensures r.Converted? ==> r.disk.folderExists
    ensures r.Converted? && r.name != "" ==> r.name == PngFileName(code) && r.disk.files == disk.files + {PngFileName(code)}
    ensures r.Converted? && r.name == "" ==> r.disk == disk
    ensures r.Converted? ==> (r.name != "" <==> PdfFileName(code) in disk.files && converted)
  {
    if !disk.folderExists then Fatal
    else if PdfFileName(code) !in disk.files then Converted("", disk)
    else if !converted then Converted("", disk)
    else Converted(PngFileName(code), disk.(files := disk.files + {PngFileName(code)}))
  }
}
